=== FILE: README.md ===
# Signed-link video gate

This is a model of the Cloudflare Pages function `functions/video.js`. The function sits in front of an R2 bucket and serves files through links that expire and carry a signature:

- A request whose path has no file name gets the admin panel, behind HTTP Basic authentication.
- A request for `/video/<file>` without a `sig` parameter is redirected (302) to the same URL. The redirect URL adds `expiry` (now + 3 hours, in seconds) and `sig`, the lowercase hexadecimal SHA-256 of file name, expiry text and secret.
- A request that carries `sig` is checked in two steps:
  1. It is refused with 403 "Link Expired" when `parseInt(expiry) < now`.
  2. Otherwise it is refused with 403 "Invalid Signature" when `sig` differs from the signature recomputed over the `expiry` text as received.
- A link that passes both checks is proxied from the R2 public domain, with a mobile User-Agent, no Accept-Encoding and the client's Range header. The answer goes back with the origin's status. Its headers are the origin's, with CORS opened, `Accept-Ranges: bytes` and a Content-Disposition of `attachment` (when `dl=true`) or `inline`.

The model has these modules, one per concern of the source:

| module | what it holds |
|---|---|
| `Wrappers` | `Option` |
| `Text` | `String.prototype.split` on one character, `filter(p => p)` |
| `Numbers` | JavaScript's ToString of integers and the global `parseInt` (section 19.2.5 of ECMA-262) |
| `Hex` | `toString(16).padStart(2, '0')` and its decoding |
| `Signer` | `generateSignature`, over a hash function given as a parameter |
| `Path` | the file name taken from the URL path |
| `SearchParams` | `URLSearchParams.get`/`set` (section 6.2 of the WHATWG URL Standard); the query is a class updated in place |
| `Headers` | the Fetch `Headers` object, case-insensitive, as a class updated in place |
| `AdminPanel` | the 401 decision of `handleAdminPanel` |
| `Gate` | `onRequest` itself |

`Gate.Handle` is the whole of `onRequest` as one function. `Gate.OnRequest` is the same work done step by step, with the query and the two header lists changed in place, and it is proved equal to `Handle`. The properties are then proved about `Handle` and about `Gate.Decide`, the branch taken before any fetch.

Some parts of the world become parameters:

- The clock is the parameter `now`.
- SHA-256 together with `TextEncoder` is the parameter `hash`, any function from strings to 32-byte digests.
- `btoa` is a parameter.
- `fetch` is a parameter that returns either a thrown error or the origin's status and headers.

## Model

| member | source | states |
|---|---|---|
| Text.Split | functions/video.js:17 | `split('/')` always gives at least one piece |
| Text.SplitPiecesAvoidSeparator | functions/video.js:17 | no piece of a split contains the separator |
| Text.JoinOfSplit | functions/video.js:17 | joining the pieces with the separator gives the string back |
| Text.SplitOfJoin | functions/video.js:17 | splitting a join of separator-free pieces gives the pieces back |
| Text.SplitAtSeparator | functions/video.js:17 | a separator splits the text into the pieces of each side |
| Text.SplitWithoutSeparator | functions/video.js:17 | text without the separator is one piece |
| Text.NonEmptySpec | functions/video.js:17 | `filter(p => p)` keeps every non-empty element and only non-empty elements of the list, and never more elements than there were |
| Text.NonEmptyOfOne | functions/video.js:17 | one element is kept exactly when it is non-empty; with `NonEmptyAppend` this fixes the whole result, order included |
| Text.NonEmptyAppend | functions/video.js:17 | filtering distributes over concatenation |
| Text.NonEmptyKeepsNonEmpty | functions/video.js:17 | a list of non-empty strings is left as it is |
| Path.SegmentsAreNames | functions/video.js:17 | the path parts are non-empty and contain no slash |
| Path.FileNameIsSegment | functions/video.js:18 | a file name, when there is one, is the last part and is non-empty and slash-free |
| Path.SegmentsOfOne | functions/video.js:17 | a slash-free text is one part, or none when empty |
| Path.SegmentsOfConcat | functions/video.js:17 | the parts of `a/b` are those of `a` followed by those of `b` |
| Path.FileNameOfPath | functions/video.js:17-18 | for `/s1/.../sn` the file name is `sn` exactly when n ≥ 2, and null otherwise |
| Path.SingleSegmentHasNoFileName | functions/video.js:18-23 | a one-segment path such as `/movie.mp4` has no file name |
| Path.SegmentsOfDoubledSlash | functions/video.js:17 | a doubled slash separates no more parts than one slash |
| Path.SegmentsOfTrailingSlash | functions/video.js:17 | a trailing slash adds no part |
| Path.FileNameIgnoresEmptySegments | functions/video.js:17-18 | doubled and trailing slashes do not change the file name |
| Numbers.NatToDecimal | functions/video.js:37 | the decimal text of a non-negative integer: at least one digit, all digits, no leading zero |
| Numbers.IntToString | functions/video.js:37-39 | the text of an integer is non-empty and starts with `-` exactly when the integer is negative |
| Numbers.DecimalValue | functions/video.js:50 | the digits written for n denote n |
| Numbers.TrimStartSpec | functions/video.js:50 | `parseInt` skips exactly the leading white space |
| Numbers.DigitPrefix | functions/video.js:50 | `parseInt` reads the longest prefix of digits of the radix |
| Numbers.ParseIntOfIntToString | functions/video.js:50 | `parseInt` reads back the integer that ToString wrote, also with trailing text that cannot continue the number |
| Numbers.ParseIntOfNatural | functions/video.js:50 | the decimal text of a non-negative integer reads back as that integer |
| Numbers.ParseIntOfNegative | functions/video.js:50 | `-` before the text of a positive integer reads back as its negation |
| Numbers.ParseIntOfNonNumeric | functions/video.js:50 | a text in which no decimal digit follows the leading white space and the optional sign (`"null"`, `"-abc"`, `" abc"` and `"+"` among them) is NaN |
| Numbers.ParseIntSkipsWhiteSpace | functions/video.js:50 | leading white space does not change the parsed value |
| Numbers.DigitsValueBelow | functions/video.js:50 | k decimal digits denote less than 10^k |
| Numbers.DigitsValuePrepend | functions/video.js:50 | a digit written in front of k digits adds its value times 10^k |
| Numbers.ParseIntOfPrefixedNatural | functions/video.js:50 | a non-zero digit c in front of the text of n reads as c·10^k + n, where 10^k > n |
| Hex.HexDigit | functions/video.js:146 | the digit `toString(16)` writes is lowercase and has the value it was written for |
| Hex.Radix16 | functions/video.js:146 | `toString(16)` is lowercase hex, and one digit exactly for values below 16 |
| Hex.PadStart | functions/video.js:146 | `padStart` reaches the width, keeps the text at the end and fills the front |
| Hex.HexByte | functions/video.js:146 | a byte is two lowercase hex digits |
| Hex.PaddedRadix16IsHexByte | functions/video.js:146 | `b.toString(16).padStart(2, '0')` is the byte's two digits, high nibble first, zero-padded |
| Hex.HexEncode | functions/video.js:146 | the encoding has two characters per byte |
| Hex.HexEncodeIsLowerHex | functions/video.js:146 | the encoding uses lowercase hex digits only |
| Hex.HexDecode | functions/video.js:146 | the decoding has one byte per two characters |
| Hex.HexDecodeOfEncode | functions/video.js:146 | decoding the encoding gives the bytes back |
| Hex.HexEncodeInjective | functions/video.js:146 | distinct digests have distinct encodings |
| Signer.Message | functions/video.js:141 | the hashed message starts with the file name and ends with the secret, and its length is the sum of the parts |
| Signer.SignMessage | functions/video.js:144-146 | the hex digest of a message is 64 lowercase hex characters that decode to the message's digest |
| Signer.Signature | functions/video.js:140-147 | the signature is 64 lowercase hex characters that decode to the digest of the message |
| Signer.SignatureDeterminesDigest | functions/video.js:140-147 | equal signatures mean equal digests |
| Signer.MessageBoundaryShift | functions/video.js:141 | moving a character across the file name / expiry boundary gives the same signature |
| Signer.SeparatedSignature | functions/video.js:140-147 | the signature over the separated message: 64 lowercase hex characters that decode to its digest |
| Signer.SeparatedMessageInjective | functions/video.js:141 | with a slash between file name and expiry, equal messages mean equal file names and equal expiries |
| SearchParams.CountSpec | functions/video.js:39-40 | a name's count is zero exactly when the name is absent |
| SearchParams.FirstIndex | functions/video.js:28-30 | the first position holding the name; no earlier pair has it |
| SearchParams.GetParamSpec | functions/video.js:28-30 | `get` is null exactly when the name is absent, and otherwise the value of its first pair |
| SearchParams.WithoutRemoves | functions/video.js:39-40 | removing a name leaves no pair of it |
| SearchParams.GetParamWithout | functions/video.js:39-40 | removing one name leaves what `get` gives for the others, and how often they occur |
| SearchParams.WithoutAbsent | functions/video.js:39-40 | removing an absent name changes nothing |
| SearchParams.WithoutCommutes | functions/video.js:39-40 | removing two names gives the same list in either order |
| SearchParams.SetParamGet | functions/video.js:39-40 | after `set`, `get` gives the new value |
| SearchParams.SetParamCount | functions/video.js:39-40 | after `set`, the name occurs exactly once |
| SearchParams.SetParamWithout | functions/video.js:39-40 | after `set`, the pairs of the other names are as before, in order |
| SearchParams.SetParamPosition | functions/video.js:39-40 | an existing name keeps the place of its first pair; a new one is appended |
| SearchParams.SetParamSpec | functions/video.js:39-40 | all of the above about `set` together |
| SearchParams.SetParamKeepsOthers | functions/video.js:39-40 | `set` does not change what `get` gives for another name, nor how often it occurs |
| SearchParams.ParamList.constructor | functions/video.js:3 | the list holds the URL's query pairs |
| SearchParams.ParamList.Set | functions/video.js:39-40 | one pass of `set` in place leaves the list equal to `SetParam` of the old list |
| Headers.Lower | functions/video.js:63-69 | header names compare in lowercase: each ASCII capital becomes its own lower-case letter (code + 32), every other character is kept, and a lowercase name is its own key |
| Headers.GetHeader | functions/video.js:67-68 | `get` finds a header exactly when its lowercase name is a key |
| Headers.SetHeaderSpec | functions/video.js:79-86 | after `set`, the name in any case gives the value, other names are unchanged, and the key is added |
| Headers.DeleteHeaderSpec | functions/video.js:81 | after `delete`, the name in any case is gone and other names are unchanged |
| Headers.Headers.constructor | functions/video.js:78 | the copy holds the headers it was built from |
| Headers.Headers.Set | functions/video.js:79-80 | `set` in place leaves the list equal to `SetHeader` of the old list |
| Headers.Headers.Delete | functions/video.js:81 | `delete` in place leaves the list equal to `DeleteHeader` of the old list |
| AdminPanel.AdminPassword | functions/video.js:11 | the password is the environment's when that is non-empty, and is never empty |
| AdminPanel.AcceptsCredential | functions/video.js:103 | `<scheme> <btoa("admin:"+password)>`, also with more words after it, opens the panel |
| AdminPanel.CredentialDecides | functions/video.js:103 | for `<scheme> <word>` (more words may follow) the panel opens exactly when the word is the credential; a missing header never opens it |
| AdminPanel.NoSecondWordDenied | functions/video.js:103 | a header with no space has no second word and is always refused |
| Gate.OriginRequestHeadersSpec | functions/video.js:63-69 | the origin gets the mobile User-Agent, no Accept-Encoding, the client's Range, and every other client header unchanged |
| Gate.RelayedHeadersSpec | functions/video.js:78-87 | the client gets ACAO `*`, `Accept-Ranges: bytes`, the attachment disposition iff `dl=true` and `inline` iff not, and every other origin header unchanged |
| Gate.OnRequest | functions/video.js:1-97 | the step-by-step handler gives the response of `Handle` |
| Gate.Redeem | functions/video.js:47-52 | the signed branch checks expiry first and then answers as the validation decides |
| Gate.Authenticate | functions/video.js:54-58 | an unexpired link with a wrong signature is 403 "Invalid Signature"; with the right one it is forwarded |
| Gate.Forward | functions/video.js:60-95 | the fetch goes to the origin URL with the inbound method and rewritten headers; a thrown fetch or a status the Response constructor refuses gives 500, otherwise the origin's answer is relayed |
| Gate.SignUrl | functions/video.js:33-40 | minting sets `expiry` and then `sig` on the request's own query |
| Gate.BuildOriginHeaders | functions/video.js:63-69 | the in-place header edits give `OriginRequestHeaders` |
| Gate.RewriteResponseHeaders | functions/video.js:78-87 | the in-place header edits give `RelayedHeaders` |
| Gate.ShortPathShowsAdmin | functions/video.js:17-23 | a one-segment path is the admin panel whatever the query: 401 unless the credential matches |
| Gate.AdminGate | functions/video.js:100-108 | on a one-segment path, `Authorization: <scheme> <word>` gets the admin page exactly when the word is `btoa("admin:" + password)` and 401 otherwise; no header, or one without a space, gets 401 |
| Gate.SignedQuery | functions/video.js:39-40 | after setting `expiry` and `sig`, both read back, each occurs exactly once, and the pairs of every other name are kept, repeats and order included |
| Gate.MintRedirect | functions/video.js:33-43 | a request without `sig` is a 302 to the same origin and path, with `expiry` = now + 10800, `sig` = the signature over them, each occurring exactly once, and the pairs of every other name kept, repeats and order included |
| Gate.ExpiryBoundary | functions/video.js:50-52 | an `expiry` starting with integer t is expired exactly when t < now; t = now is accepted |
| Gate.ExpiryOfDecimal | functions/video.js:50-52 | a minted `expiry` is expired exactly when its value is below now |
| Gate.NonNumericExpiryNeverExpires | functions/video.js:29-52 | a missing `expiry`, or one in which no digit follows the leading white space and the optional sign, is NaN and never expired |
| Gate.MissingExpirySignsNull | functions/video.js:29-58 | without `expiry`, the link is checked against the signature over the text `null` |
| Gate.ForgedLinkRejected | functions/video.js:55-58 | a signature minted for another file or expiry, with a different digest, is refused as invalid |
| Gate.ServedLinkCarriesDigest | functions/video.js:55-58 | a link is served only if its `sig` is 64 lowercase hex characters that decode to the digest of file name, expiry text and secret |
| Gate.ChecksBeforeFetch | functions/video.js:21-58 | the 401, the redirect and both 403s do not depend on `fetch`; the 403 bodies are "Link Expired" and "Invalid Signature" |
| Gate.MintThenRedeem | functions/video.js:33-58 | the minted link, followed up to 3 hours later, passes both checks and is proxied with the original `dl` flag |
| Gate.MintedLinkExpires | functions/video.js:33-52 | the minted link, followed after 3 hours, is refused as expired |
| Gate.ProxyOutcome | functions/video.js:61-95 | a thrown fetch, or an origin status outside 200-599 (the Response constructor throws), is 500 "Proxy Error"; otherwise the origin status is kept with the rewritten headers and every other origin header unchanged |
| Gate.ExpiryBypass | functions/video.js:50-56 | as written: the signature minted for `<f>9` with expiry e, presented for f with expiry `9<e>`, is served up to time 10·e |
| Gate.PrefixedExpiryHolds | functions/video.js:50 | an `expiry` of `9` followed by the text of n is not expired at any time up to 10·n |
| Gate.SeparatedLinkIsItsOwnMint | functions/video.js:50-58 | corrected: with the separated message, a link whose `sig` was minted for (F, T) is served only for F, only with expiry T, and only up to T, barring a digest collision |
| Gate.SeparatedLinkAccepted | functions/video.js:50-58 | corrected: the link minted for (F, T) is still served for F at any time up to T |

## Left out

- `worker.js` is an unrelated upload helper: it logs into a storage service and relays an upload-policy request, with no signing or gating. `functions/video/[[name]].js` is an unsigned variant of the proxy. Neither is part of this model.
- The HTML of the admin page (lines 110-136) is not modelled; `Gate.Response.AdminPage` stands for it. The 401's `WWW-Authenticate` header is a comment on `Unauthorized`.
- SHA-256 and the UTF-8 encoding of the message become the parameter `hash`, any function to 32-byte digests. Collision resistance is not assumed; the lemmas that need distinct digests say so in their `requires`.
- `btoa` is a parameter. Its Latin-1 range check and the exception it throws are not modelled.
- `Date.now()` is the parameter `now`, in whole seconds. The source reads the clock separately in the mint and redeem branches, but only one branch runs per request, so one `now` per request is the same.
- `fetch` is a parameter that returns a thrown error or a status and headers. The body stream, `redirect: "follow"`, the asynchrony and a fetch that never settles are not modelled.
- URL parsing and serialisation are not modelled. `request.url` is given already split into origin, path and query pairs. Percent-encoding and decoding of the path and query are not modelled, and neither is `url.toString()` in the redirect, which is the URL value itself.
- Numbers.IntToString: exact integers only. The exponent notation ToString uses from 10^21 on, and double precision in `parseInt` for very long digit strings, are not modelled; timestamps are far below both.
- Strings are sequences of characters, not UTF-16 code units. Header values are stored as given: no whitespace normalisation, and no combining of repeated headers.
- Signatures are compared with `!==` (functions/video.js:56). The model uses plain string equality and does not model timing.
- A missing or non-numeric `expiry` is not refused: `parseInt(null)` is NaN and `NaN < now` is false, so such a link is checked against the signature over the text `null`. A non-numeric `expiry` is likewise never expired. The model follows the code (`Gate.MissingExpirySignsNull`, `Gate.NonNumericExpiryNeverExpires`).
- The status range of the Response constructor (200 to 599) is modelled; its other checks (a body given with a null-body status such as 204 or 304) are not, since a fetched response with such a status has no body to pass on.

## Findings

| source | as written | input that shows it | evidently intended | confidence | as-written member | corrected member |
|---|---|---|---|---|---|---|
| functions/video.js:141 | the signed message is `fileName + expiry + secret` with nothing between file name and expiry, so the file name / expiry split is not bound by the signature | mint `/video/movie.mp49` at time t (anyone may mint), getting `expiry` e = t+10800 and `sig` s; then request `/video/movie.mp4?expiry=9<e>&sig=s`: the message is the same, and `parseInt("9"+e)` is above 10·e, so the link for `movie.mp4` is served long past 3 hours | a link serves only the file it was minted for, and only until its own expiry (functions/video.js:9) | high, not executed | Gate.ExpiryBypass | Gate.SeparatedLinkIsItsOwnMint |

The corrected message puts a slash, which no file name contains, between file name and expiry (`Signer.SeparatedMessage`). `Gate.ValidateSeparated` is the signed-link check with that message; `Gate.SeparatedLinkAccepted` shows it still accepts every genuine link. The rest of the gate (`Gate.Validate`, `Gate.Handle`) keeps the message as written, so that it stays a model of the code as it is.

=== FILE: admin.dfy ===
/** The only decision `handleAdminPanel` makes: whether to answer 401 or to
    show the link generator page (HTTP Basic credentials, RFC 7617
    section 2). `btoa` is a parameter. */
module AdminPanel {
  import opened Wrappers
  import opened Text

  /** The built-in password, used when the environment gives none. */
  const DefaultAdminPassword := "mysecretpassword123"

  /** `env.ADMIN_PASSWORD || "mysecretpassword123"`: an empty string is falsy. */
  function AdminPassword(env: Option<string>): (p: string)
    ensures p != ""
    ensures env.Some? && env.value != "" ==> p == env.value
  {
    if env.Some? && env.value != "" then env.value else DefaultAdminPassword
  }

  /** The expected credential: `btoa("admin:" + password)`. */
  function Credential(password: string, btoa: string -> string): string
  {
    btoa("admin:" + password)
  }

  /** `!authHeader || authHeader.split(" ")[1] !== btoa("admin:" + password)`:
      the request is refused when the header is missing or empty, has no
      second space-separated word, or that word is not the credential. */
  predicate Denied(authorization: Option<string>, password: string, btoa: string -> string)
  {
    match authorization
    case None => true
    case Some(h) =>
      var words := Split(h, ' ');
      h == "" || |words| < 2 || words[1] != Credential(password, btoa)
  }

  /** A word after a space-free first word and one space is the second
      space-separated word, whatever follows it after another space. */
  lemma SecondWord(first: string, word: string, tail: string)
    requires ' ' !in first && ' ' !in word
    requires |tail| == 0 || tail[0] == ' '
    ensures var words := Split(first + " " + word + tail, ' ');
      |words| >= 2 && words[1] == word
  {
    SplitFirstPiece(word, tail, ' ');
    SplitAfterWord(first, word + tail, ' ');
    assert first + " " + word + tail == first + [' '] + (word + tail);
  }

  /** "<scheme> <credential>" opens the panel, for any space-free scheme word
      ("Basic" among them), also when more space-separated words follow. */
  lemma AcceptsCredential(scheme: string, tail: string, password: string, btoa: string -> string)
    requires ' ' !in scheme && ' ' !in Credential(password, btoa)
    requires |tail| == 0 || tail[0] == ' '
    ensures !Denied(Some(scheme + " " + Credential(password, btoa) + tail), password, btoa)
  {
    SecondWord(scheme, Credential(password, btoa), tail);
  }

  /** For a header "<scheme> <word>" (more space-separated words may follow),
      the panel opens exactly when the word is the credential; a missing
      header never opens it. */
  lemma CredentialDecides(scheme: string, word: string, tail: string, password: string, btoa: string -> string)
    requires ' ' !in scheme && ' ' !in word
    requires |tail| == 0 || tail[0] == ' '
    ensures !Denied(Some(scheme + " " + word + tail), password, btoa) <==> word == Credential(password, btoa)
    ensures Denied(None, password, btoa)
  {
    SecondWord(scheme, word, tail);
  }

  /** A header with no space has no second word ("Basic" alone, or a bare
      credential sent without a scheme): it is always refused. */
  lemma NoSecondWordDenied(h: string, password: string, btoa: string -> string)
    requires ' ' !in h
    ensures Denied(Some(h), password, btoa)
  {
    SplitWithoutSeparator(h, ' ');
  }
}

=== FILE: gate.dfy ===
/** The signed-link gate of functions/video.js: from the request URL it
    decides between the admin panel, minting a signed link, refusing an
    expired or forged one, and proxying the file from the R2 origin with
    rewritten headers. The clock, the hash, `btoa` and `fetch` are parameters. */
module Gate {
  import opened Wrappers
  import opened Numbers
  import opened Hex
  import opened Signer
  import opened Path
  import opened SearchParams
  import opened Headers
  import opened AdminPanel

  const SecretKey := "change-this-to-your-secure-key"
  /** How long a minted link lives: three hours. */
  const ExpirySeconds := 10800
  /** The R2 public domain, without a trailing slash. */
  const DefaultR2Domain := "https://pub-xxx.r2.dev"
  const MobileUserAgent := "Mozilla/5.0 (Linux; Android 10; K) AppleWebKit/537.36 (KHTML, like Gecko) Chrome/120.0.0.0 Mobile Safari/537.36"

  /** A parsed URL: scheme, host and port, the path, and the query pairs. */
  datatype Url = Url(origin: string, pathname: string, query: seq<Param>)

  datatype Request = Request(httpMethod: string, url: Url, headers: HeaderMap)

  /** What `fetch` gives: a thrown error, or the origin's status and headers
      (the body is streamed through untouched and is not modelled). */
  datatype FetchResult = Unreachable | Fetched(status: int, headers: HeaderMap)

  /** `fetch(url, { method, headers })`. */
  type Fetcher = (string, string, HeaderMap) -> FetchResult

  datatype Response =
    | Unauthorized                         // 401 with WWW-Authenticate: Basic realm="Admin Access"
    | AdminPage                            // 200, the link generator page
    | Redirect(location: Url)              // 302
    | Plain(status: int, body: string)     // 403 and 500 text answers
    | Relay(status: int, headers: HeaderMap)  // the origin's answer, headers rewritten

  /** The branch the gate takes before any origin is contacted. */
  datatype Decision =
    | ShowAdmin
    | Mint(location: Url)
    | LinkExpired
    | InvalidSignature
    | Proxy(fileName: string, download: bool)

  /** A query value as JavaScript turns it into a string: null is "null". */
  function JsString(v: Option<string>): string
  {
    if v.Some? then v.value else "null"
  }

  /** `parseInt(expiry) < now`: NaN is never less than anything. */
  predicate IsExpired(expiry: Option<string>, now: int)
  {
    var parsed := ParseInt(JsString(expiry));
    parsed.Int? && parsed.value < now
  }

  /** The signed query of a mint at `now`: `expiry` and `sig` set in place. */
  function MintedQuery(query: seq<Param>, fileName: string, now: int, hash: Hasher): seq<Param>
  {
    var expiry := IntToString(now + ExpirySeconds);
    SetParam(SetParam(query, "expiry", expiry), "sig", Signature(hash, fileName, expiry, SecretKey))
  }

  /** The dispatch of `onRequest` up to the origin fetch. */
  function Decide(req: Request, now: int, hash: Hasher): Decision
  {
    match FileName(req.url.pathname)
    case None => ShowAdmin
    case Some(fileName) =>
      var signature := GetParam(req.url.query, "sig");
      if signature.None? || signature.value == "" then
        Mint(req.url.(query := MintedQuery(req.url.query, fileName, now, hash)))
      else Validate(req.url.query, fileName, signature.value, now, hash)
  }

  /** The checks on a signed link: expiry first, then the signature over the
      `expiry` text as received. */
  function Validate(query: seq<Param>, fileName: string, signature: string, now: int, hash: Hasher): Decision
  {
    var expiry := GetParam(query, "expiry");
    if IsExpired(expiry, now) then LinkExpired
    else if signature != Signature(hash, fileName, JsString(expiry), SecretKey) then InvalidSignature
    else Proxy(fileName, GetParam(query, "dl") == Some("true"))
  }

  /** The URL the file is fetched from. */
  function OriginUrl(fileName: string): string
  {
    DefaultR2Domain + "/" + fileName
  }

  /** The headers sent to the origin: the inbound ones with the mobile
      User-Agent, without Accept-Encoding, and with the inbound Range. */
  function OriginRequestHeaders(inbound: HeaderMap): HeaderMap
  {
    var h := SetHeader(inbound, "User-Agent", MobileUserAgent);
    var h := DeleteHeader(h, "Accept-Encoding");
    var range := GetHeader(inbound, "Range");
    if range.Some? then SetHeader(h, "Range", range.value) else h
  }

  /** The origin sees the mobile User-Agent, no Accept-Encoding, the inbound
      Range, and every other inbound header unchanged. */
  lemma OriginRequestHeadersSpec(inbound: HeaderMap)
    ensures var r := OriginRequestHeaders(inbound);
      && GetHeader(r, "User-Agent") == Some(MobileUserAgent)
      && GetHeader(r, "Accept-Encoding") == None
      && GetHeader(r, "Range") == GetHeader(inbound, "Range")
      && forall n :: Lower(n) != Lower("User-Agent") && Lower(n) != Lower("Accept-Encoding") ==>
           GetHeader(r, n) == GetHeader(inbound, n)
  {
    var h1 := SetHeader(inbound, "User-Agent", MobileUserAgent);
    var h2 := DeleteHeader(h1, "Accept-Encoding");
    SetHeaderSpec(inbound, "User-Agent", MobileUserAgent);
    DeleteHeaderSpec(h1, "Accept-Encoding");
    var range := GetHeader(inbound, "Range");
    if range.Some? {
      SetHeaderSpec(h2, "Range", range.value);
    }
  }

  /** The Content-Disposition the client gets. */
  function ContentDisposition(fileName: string, download: bool): string
  {
    if download then "attachment; filename=\"" + fileName + "\"" else "inline"
  }

  /** The origin's headers as relayed: CORS open to all, byte ranges
      advertised, and the disposition replaced. */
  function RelayedHeaders(origin: HeaderMap, fileName: string, download: bool): HeaderMap
  {
    var h := SetHeader(origin, "Access-Control-Allow-Origin", "*");
    var h := SetHeader(h, "Accept-Ranges", "bytes");
    var h := DeleteHeader(h, "Content-Disposition");
    SetHeader(h, "Content-Disposition", ContentDisposition(fileName, download))
  }

  /** The client sees CORS open to all, byte ranges advertised, the
      attachment disposition exactly when a download was asked for and
      `inline` exactly when not, and every other origin header unchanged. */
  lemma RelayedHeadersSpec(origin: HeaderMap, fileName: string, download: bool)
    ensures var r := RelayedHeaders(origin, fileName, download);
      && GetHeader(r, "Access-Control-Allow-Origin") == Some("*")
      && GetHeader(r, "Accept-Ranges") == Some("bytes")
      && (GetHeader(r, "Content-Disposition") == Some("attachment; filename=\"" + fileName + "\"") <==> download)
      && (GetHeader(r, "Content-Disposition") == Some("inline") <==> !download)
      && forall n :: Lower(n) !in {Lower("Access-Control-Allow-Origin"), Lower("Accept-Ranges"), Lower("Content-Disposition")} ==>
           GetHeader(r, n) == GetHeader(origin, n)
  {
    var h1 := SetHeader(origin, "Access-Control-Allow-Origin", "*");
    var h2 := SetHeader(h1, "Accept-Ranges", "bytes");
    var h3 := DeleteHeader(h2, "Content-Disposition");
    SetHeaderSpec(origin, "Access-Control-Allow-Origin", "*");
    SetHeaderSpec(h1, "Accept-Ranges", "bytes");
    DeleteHeaderSpec(h2, "Content-Disposition");
    SetHeaderSpec(h3, "Content-Disposition", ContentDisposition(fileName, download));
  }

  /** The whole of `onRequest`: the response to `req` at time `now`. */
  function Handle(req: Request, env: Option<string>, now: int, hash: Hasher,
                  btoa: string -> string, fetch: Fetcher): Response
  {
    var decision := Decide(req, now, hash);
    if decision.ShowAdmin? then
      if Denied(GetHeader(req.headers, "Authorization"), AdminPassword(env), btoa) then Unauthorized else AdminPage
    else Respond(decision, req, fetch)
  }

  /** The answer to every decision but the admin panel. */
  function Respond(decision: Decision, req: Request, fetch: Fetcher): Response
    requires !decision.ShowAdmin?
  {
    match decision
    case Mint(location) => Redirect(location)
    case LinkExpired => Plain(403, "Link Expired")
    case InvalidSignature => Plain(403, "Invalid Signature")
    case Proxy(fileName, download) =>
      Relayed(fetch(OriginUrl(fileName), req.httpMethod, OriginRequestHeaders(req.headers)), fileName, download)
  }

  /** The statuses `new Response(body, { status })` accepts; any other
      makes it throw a RangeError (the Response constructor of the Fetch
      Standard, section 5.5). */
  predicate IsResponseStatus(status: int)
  {
    200 <= status <= 599
  }

  /** The answer built from what the origin fetch gave: a thrown fetch, or a
      status the Response constructor refuses, is caught as 500. */
  function Relayed(result: FetchResult, fileName: string, download: bool): Response
  {
    match result
    case Unreachable => Plain(500, "Proxy Error")
    case Fetched(status, headers) =>
      if IsResponseStatus(status) then Relay(status, RelayedHeaders(headers, fileName, download))
      else Plain(500, "Proxy Error")
  }

  /** `onRequest` step by step; the query and the two header lists are
      changed in place by the steps below. */
  method OnRequest(req: Request, env: Option<string>, now: int, hash: Hasher,
                   btoa: string -> string, fetch: Fetcher) returns (resp: Response)
    ensures resp == Handle(req, env, now, hash, btoa, fetch)
  {
    var found := FileName(req.url.pathname);
    if found.None? {
      var denied := Denied(GetHeader(req.headers, "Authorization"), AdminPassword(env), btoa);
      resp := if denied then Unauthorized else AdminPage;
      return;
    }
    var signature := GetParam(req.url.query, "sig");
    if signature.None? || signature.value == "" {
      var location := SignUrl(req.url, found.value, now, hash);
      resp := Redirect(location);
      return;
    }
    resp := Redeem(req, found.value, signature.value, now, hash, fetch);
  }

  /** The signed branch of `onRequest`: expiry first. */
  method Redeem(req: Request, fileName: string, signature: string, now: int, hash: Hasher,
                fetch: Fetcher) returns (resp: Response)
    ensures resp == Respond(Validate(req.url.query, fileName, signature, now, hash), req, fetch)
  {
    var expiry := GetParam(req.url.query, "expiry");
    if IsExpired(expiry, now) {
      resp := Plain(403, "Link Expired");
    } else {
      resp := Authenticate(req, fileName, signature, now, hash, fetch);
    }
  }

  /** An unexpired link: the signature over the `expiry` text as received,
      then the origin fetch. */
  method Authenticate(req: Request, fileName: string, signature: string, now: int, hash: Hasher,
                      fetch: Fetcher) returns (resp: Response)
    requires !IsExpired(GetParam(req.url.query, "expiry"), now)
    ensures resp == Respond(Validate(req.url.query, fileName, signature, now, hash), req, fetch)
  {
    var expiry := GetParam(req.url.query, "expiry");
    var expectedSig := Signature(hash, fileName, JsString(expiry), SecretKey);
    if signature != expectedSig {
      resp := Plain(403, "Invalid Signature");
    } else {
      var shouldDownload := GetParam(req.url.query, "dl") == Some("true");
      resp := Forward(req, fileName, shouldDownload, fetch);
    }
  }

  /** The accepted branch: fetch from the origin and relay its answer. */
  method Forward(req: Request, fileName: string, download: bool, fetch: Fetcher) returns (resp: Response)
    ensures resp == Relayed(fetch(OriginUrl(fileName), req.httpMethod, OriginRequestHeaders(req.headers)), fileName, download)
  {
    var newHeaders := BuildOriginHeaders(req.headers);
    var response := fetch(OriginUrl(fileName), req.httpMethod, newHeaders);
    match response
    case Unreachable =>
      resp := Plain(500, "Proxy Error");
    case Fetched(status, originHeaders) =>
      var responseHeaders := RewriteResponseHeaders(originHeaders, fileName, download);
      if IsResponseStatus(status) {
        resp := Relay(status, responseHeaders);
      } else {
        // the Response constructor throws, and the catch answers
        resp := Plain(500, "Proxy Error");
      }
  }

  /** The mint step: `expiry` and `sig` set on the request's own query. */
  method SignUrl(url: Url, fileName: string, now: int, hash: Hasher) returns (location: Url)
    ensures location == url.(query := MintedQuery(url.query, fileName, now, hash))
  {
    var newExpiry := now + ExpirySeconds;
    var sig := Signature(hash, fileName, IntToString(newExpiry), SecretKey);
    var params := new ParamList(url.query);
    params.Set("expiry", IntToString(newExpiry));
    params.Set("sig", sig);
    location := url.(query := params.params);
  }

  /** The outbound header list, built from a copy of the inbound one. */
  method BuildOriginHeaders(inbound: HeaderMap) returns (h: HeaderMap)
    ensures h == OriginRequestHeaders(inbound)
  {
    var newHeaders := new Headers(inbound);
    newHeaders.Set("User-Agent", MobileUserAgent);
    newHeaders.Delete("Accept-Encoding");
    var range := GetHeader(inbound, "Range");
    if range.Some? {
      newHeaders.Set("Range", range.value);
    }
    h := newHeaders.list;
  }

  /** The relayed header list, built from a copy of the origin's one. */
  method RewriteResponseHeaders(origin: HeaderMap, fileName: string, download: bool) returns (h: HeaderMap)
    ensures h == RelayedHeaders(origin, fileName, download)
  {
    var responseHeaders := new Headers(origin);
    responseHeaders.Set("Access-Control-Allow-Origin", "*");
    responseHeaders.Set("Accept-Ranges", "bytes");
    responseHeaders.Delete("Content-Disposition");
    responseHeaders.Set("Content-Disposition", ContentDisposition(fileName, download));
    h := responseHeaders.list;
  }

  // ---------------------------------------------------------------------
  // Properties of the gate
  // ---------------------------------------------------------------------

  /** A path of one segment ("/movie.mp4", "/video") is the admin panel,
      whatever the query says: 401 unless the credential matches. */
  lemma ShortPathShowsAdmin(req: Request, segment: string, env: Option<string>, now: int, hash: Hasher,
                            btoa: string -> string, fetch: Fetcher)
    requires '/' !in segment && req.url.pathname == "/" + segment
    ensures Handle(req, env, now, hash, btoa, fetch) ==
      if Denied(GetHeader(req.headers, "Authorization"), AdminPassword(env), btoa) then Unauthorized else AdminPage
  {
    SingleSegmentHasNoFileName(segment);
  }

  /** On a one-segment path, "Authorization: <scheme> <word>" gets the admin
      page exactly when the word is `btoa("admin:" + password)`, and 401
      otherwise; no Authorization header, or one with no space in it, gets
      401. */
  lemma AdminGate(req: Request, segment: string, scheme: string, word: string, tail: string,
                  env: Option<string>, now: int, hash: Hasher, btoa: string -> string, fetch: Fetcher)
    requires '/' !in segment && req.url.pathname == "/" + segment
    requires ' ' !in scheme && ' ' !in word
    requires |tail| == 0 || tail[0] == ' '
    ensures GetHeader(req.headers, "Authorization") == Some(scheme + " " + word + tail) ==>
      Handle(req, env, now, hash, btoa, fetch) ==
        if word == Credential(AdminPassword(env), btoa) then AdminPage else Unauthorized
    ensures GetHeader(req.headers, "Authorization") == None ==>
      Handle(req, env, now, hash, btoa, fetch) == Unauthorized
    ensures GetHeader(req.headers, "Authorization").Some? && ' ' !in GetHeader(req.headers, "Authorization").value ==>
      Handle(req, env, now, hash, btoa, fetch) == Unauthorized
  {
    ShortPathShowsAdmin(req, segment, env, now, hash, btoa, fetch);
    CredentialDecides(scheme, word, tail, AdminPassword(env), btoa);
    var auth := GetHeader(req.headers, "Authorization");
    if auth.Some? && ' ' !in auth.value {
      NoSecondWordDenied(auth.value, AdminPassword(env), btoa);
    }
  }

  /** Every answer but the admin panel is the answer to the decision. */
  lemma HandleAnswersDecision(req: Request, env: Option<string>, now: int, hash: Hasher,
                              btoa: string -> string, fetch: Fetcher)
    requires !Decide(req, now, hash).ShowAdmin?
    ensures Handle(req, env, now, hash, btoa, fetch) == Respond(Decide(req, now, hash), req, fetch)
  {
  }

  /** A request with a file name and a non-empty `sig` is decided by the
      expiry and signature checks alone. */
  lemma RedeemDecision(req: Request, now: int, hash: Hasher)
    requires FileName(req.url.pathname).Some?
    requires GetParam(req.url.query, "sig").Some? && GetParam(req.url.query, "sig").value != ""
    ensures Decide(req, now, hash) ==
      Validate(req.url.query, FileName(req.url.pathname).value, GetParam(req.url.query, "sig").value, now, hash)
  {
  }

  /** The pairs of every name but `expiry` and `sig`, in their order. */
  function OtherParams(query: seq<Param>): seq<Param>
  {
    Without(Without(query, "expiry"), "sig")
  }

  /** Setting `expiry` and then `sig` on a query: both read back, each
      occurs once, and the pairs of every other name are kept, repeats and
      order included. */
  lemma SignedQuery(query: seq<Param>, expiry: string, sig: string)
    ensures var r := SetParam(SetParam(query, "expiry", expiry), "sig", sig);
      && GetParam(r, "expiry") == Some(expiry)
      && GetParam(r, "sig") == Some(sig)
      && Count(r, "expiry") == 1
      && Count(r, "sig") == 1
      && OtherParams(r) == OtherParams(query)
      && forall other :: other != "expiry" && other != "sig" ==> GetParam(r, other) == GetParam(query, other)
  {
    var q1 := SetParam(query, "expiry", expiry);
    var r := SetParam(q1, "sig", sig);
    SetParamSpec(q1, "sig", sig);
    SetParamSpec(query, "expiry", expiry);
    SetParamKeepsOthers(q1, "sig", sig, "expiry");
    forall other | other != "expiry" && other != "sig"
      ensures GetParam(r, other) == GetParam(query, other)
    {
      SetParamKeepsOthers(query, "expiry", expiry, other);
      SetParamKeepsOthers(q1, "sig", sig, other);
    }
    WithoutCommutes(r, "expiry", "sig");
    WithoutCommutes(q1, "expiry", "sig");
    assert Without(r, "sig") == Without(q1, "sig");
    assert Without(q1, "expiry") == Without(query, "expiry");
  }

  /** A request with a file name and no (or an empty) `sig` is redirected to
      the same URL with `expiry` set to the decimal text of now + 3 hours and
      `sig` to the signature over file name and that text; every other query
      pair is kept, in its order. */
  lemma MintRedirect(req: Request, env: Option<string>, now: int, hash: Hasher,
                     btoa: string -> string, fetch: Fetcher)
    requires FileName(req.url.pathname).Some?
    requires GetParam(req.url.query, "sig").None? || GetParam(req.url.query, "sig").value == ""
    ensures var resp := Handle(req, env, now, hash, btoa, fetch);
      var f := FileName(req.url.pathname).value;
      var expiry := IntToString(now + ExpirySeconds);
      && resp == Redirect(req.url.(query := MintedQuery(req.url.query, f, now, hash)))
      && resp.location.origin == req.url.origin
      && resp.location.pathname == req.url.pathname
      && GetParam(resp.location.query, "expiry") == Some(expiry)
      && GetParam(resp.location.query, "sig") == Some(Signature(hash, f, expiry, SecretKey))
      && Count(resp.location.query, "expiry") == 1
      && Count(resp.location.query, "sig") == 1
      && OtherParams(resp.location.query) == OtherParams(req.url.query)
      && forall other :: other != "expiry" && other != "sig" ==>
           GetParam(resp.location.query, other) == GetParam(req.url.query, other)
  {
    var f := FileName(req.url.pathname).value;
    var expiry := IntToString(now + ExpirySeconds);
    assert Decide(req, now, hash) == Mint(req.url.(query := MintedQuery(req.url.query, f, now, hash)));
    HandleAnswersDecision(req, env, now, hash, btoa, fetch);
    SignedQuery(req.url.query, expiry, Signature(hash, f, expiry, SecretKey));
  }

  /** An `expiry` that starts with a written-out integer t (trailing text is
      ignored, as `parseInt` ignores it) is expired exactly when t < now; an
      expiry equal to now is still accepted. */
  lemma ExpiryBoundary(t: int, rest: string, now: int)
    requires |rest| == 0 || !IsDecimalDigit(rest[0])
    requires t == 0 && |rest| > 0 ==> rest[0] != 'x' && rest[0] != 'X'
    ensures IsExpired(Some(IntToString(t) + rest), now) <==> t < now
  {
    ParseIntOfIntToString(t, rest);
  }

  /** The `expiry` text a mint writes is expired exactly when its value is
      below now. */
  lemma ExpiryOfDecimal(t: int, now: int)
    ensures IsExpired(Some(IntToString(t)), now) <==> t < now
  {
    ExpiryBoundary(t, "", now);
    assert IntToString(t) + "" == IntToString(t);
  }

  /** A missing `expiry` ("null" to `parseInt`), or one in which no digit
      follows the leading white space and the optional sign, is NaN, and
      NaN < now is false: such a link never expires. */
  lemma NonNumericExpiryNeverExpires(expiry: Option<string>, now: int)
    requires expiry.Some? ==> |Unsigned(expiry.value)| == 0 || !IsDecimalDigit(Unsigned(expiry.value)[0])
    ensures !IsExpired(expiry, now)
  {
    ParseIntOfNonNumeric(JsString(expiry));
  }

  /** A signed link without `expiry` is checked against the signature over
      the text "null": it is not refused for the missing expiry. */
  lemma MissingExpirySignsNull(req: Request, now: int, hash: Hasher)
    requires FileName(req.url.pathname).Some?
    requires GetParam(req.url.query, "sig").Some? && GetParam(req.url.query, "sig").value != ""
    requires GetParam(req.url.query, "expiry") == None
    ensures var f := FileName(req.url.pathname).value;
      Decide(req, now, hash) ==
        if GetParam(req.url.query, "sig").value == Signature(hash, f, "null", SecretKey)
        then Proxy(f, GetParam(req.url.query, "dl") == Some("true"))
        else InvalidSignature
  {
    NonNumericExpiryNeverExpires(None, now);
  }

  /** A signature minted for file f and expiry e, presented on an unexpired
      request for another file or expiry whose message hashes differently, is
      refused as an invalid signature (a 403 before any fetch, by
      `ChecksBeforeFetch`). */
  lemma ForgedLinkRejected(req: Request, f: string, e: string, now: int, hash: Hasher)
    requires FileName(req.url.pathname).Some?
    requires GetParam(req.url.query, "sig") == Some(Signature(hash, f, e, SecretKey))
    requires !IsExpired(GetParam(req.url.query, "expiry"), now)
    requires hash(Message(FileName(req.url.pathname).value, JsString(GetParam(req.url.query, "expiry")), SecretKey))
             != hash(Message(f, e, SecretKey))
    ensures Decide(req, now, hash) == InvalidSignature
  {
    var g := FileName(req.url.pathname).value;
    var presented := JsString(GetParam(req.url.query, "expiry"));
    assert Signature(hash, f, e, SecretKey) != Signature(hash, g, presented, SecretKey) by {
      if Signature(hash, f, e, SecretKey) == Signature(hash, g, presented, SecretKey) {
        SignatureDeterminesDigest(hash, f, e, g, presented, SecretKey);
      }
    }
    RedeemDecision(req, now, hash);
  }

  /** A link is served only if its `sig` decodes to the digest of file name,
      `expiry` text and secret: forging one means finding that digest. */
  lemma ServedLinkCarriesDigest(req: Request, now: int, hash: Hasher)
    requires Decide(req, now, hash).Proxy?
    ensures var f := Decide(req, now, hash).fileName;
      var sig := GetParam(req.url.query, "sig");
      && FileName(req.url.pathname) == Some(f)
      && sig.Some? && IsLowerHex(sig.value) && |sig.value| == 2 * DigestLength
      && HexDecode(sig.value) == hash(Message(f, JsString(GetParam(req.url.query, "expiry")), SecretKey))
  {
  }

  /** Both 403 answers, the redirect and the admin panel come without
      contacting the origin: the answer does not depend on `fetch`. */
  lemma ChecksBeforeFetch(req: Request, env: Option<string>, now: int, hash: Hasher,
                          btoa: string -> string, fetch1: Fetcher, fetch2: Fetcher)
    requires !Decide(req, now, hash).Proxy?
    ensures Handle(req, env, now, hash, btoa, fetch1) == Handle(req, env, now, hash, btoa, fetch2)
    ensures Decide(req, now, hash).LinkExpired? ==> Handle(req, env, now, hash, btoa, fetch1) == Plain(403, "Link Expired")
    ensures Decide(req, now, hash).InvalidSignature? ==> Handle(req, env, now, hash, btoa, fetch1) == Plain(403, "Invalid Signature")
  {
  }

  /** The link minted at time t (the redirect of `MintRedirect`), followed
      at any time up to t + 3 hours with the same method and headers, passes
      both checks and is proxied, with the download flag the first request
      carried. */
  lemma MintThenRedeem(req: Request, t: int, later: int, hash: Hasher)
    requires FileName(req.url.pathname).Some?
    requires later <= t + ExpirySeconds
    ensures var f := FileName(req.url.pathname).value;
      Decide(req.(url := req.url.(query := MintedQuery(req.url.query, f, t, hash))), later, hash) ==
        Proxy(f, GetParam(req.url.query, "dl") == Some("true"))
  {
    var f := FileName(req.url.pathname).value;
    var expiry := IntToString(t + ExpirySeconds);
    var sig := Signature(hash, f, expiry, SecretKey);
    var next := req.(url := req.url.(query := MintedQuery(req.url.query, f, t, hash)));
    SignedQuery(req.url.query, expiry, sig);
    assert GetParam(next.url.query, "dl") == GetParam(req.url.query, "dl");
    RedeemDecision(next, later, hash);
    ExpiryOfDecimal(t + ExpirySeconds, later);
  }

  /** The same link followed after t + 3 hours is refused as expired. */
  lemma MintedLinkExpires(req: Request, t: int, later: int, hash: Hasher)
    requires FileName(req.url.pathname).Some?
    requires later > t + ExpirySeconds
    ensures var f := FileName(req.url.pathname).value;
      Decide(req.(url := req.url.(query := MintedQuery(req.url.query, f, t, hash))), later, hash) == LinkExpired
  {
    var f := FileName(req.url.pathname).value;
    var expiry := IntToString(t + ExpirySeconds);
    var next := req.(url := req.url.(query := MintedQuery(req.url.query, f, t, hash)));
    SignedQuery(req.url.query, expiry, Signature(hash, f, expiry, SecretKey));
    RedeemDecision(next, later, hash);
    ExpiryOfDecimal(t + ExpirySeconds, later);
  }

  /** An accepted link: the origin is asked for R2 domain + "/" + file name
      with the inbound method; a thrown fetch, or a status outside 200-599
      that makes the Response constructor throw, is 500 "Proxy Error";
      otherwise the origin's status is kept and the relayed headers carry the CORS,
      range and disposition values, all others as the origin sent them. */
  lemma ProxyOutcome(req: Request, env: Option<string>, now: int, hash: Hasher,
                     btoa: string -> string, fetch: Fetcher)
    requires Decide(req, now, hash).Proxy?
    ensures var d := Decide(req, now, hash);
      var out := fetch(OriginUrl(d.fileName), req.httpMethod, OriginRequestHeaders(req.headers));
      var resp := Handle(req, env, now, hash, btoa, fetch);
      && (out.Unreachable? || !IsResponseStatus(out.status) ==> resp == Plain(500, "Proxy Error"))
      && (out.Fetched? && IsResponseStatus(out.status) ==>
            && resp.Relay? && resp.status == out.status
            && GetHeader(resp.headers, "Access-Control-Allow-Origin") == Some("*")
            && GetHeader(resp.headers, "Accept-Ranges") == Some("bytes")
            && GetHeader(resp.headers, "Content-Disposition") ==
                 Some(if d.download then "attachment; filename=\"" + d.fileName + "\"" else "inline")
            && forall n :: Lower(n) !in {Lower("Access-Control-Allow-Origin"), Lower("Accept-Ranges"), Lower("Content-Disposition")} ==>
                 GetHeader(resp.headers, n) == GetHeader(out.headers, n))
  {
    var d := Decide(req, now, hash);
    var out := fetch(OriginUrl(d.fileName), req.httpMethod, OriginRequestHeaders(req.headers));
    HandleAnswersDecision(req, env, now, hash, btoa, fetch);
    if out.Fetched? && IsResponseStatus(out.status) {
      RelayedHeadersSpec(out.headers, d.fileName, d.download);
    }
  }

  // ---------------------------------------------------------------------
  // The unseparated message and a separated one
  // ---------------------------------------------------------------------

  /** As written, the signature check lets a link for one file last ten times
      past its expiry. Minting "<f>9" at time t (any client may mint, see
      `MintRedirect`) yields `sig` over "<f>9" + e with e = t + 3 hours. The
      same `sig` with file name f and `expiry` "9" + e signs the same message
      (`MessageBoundaryShift`), and "9" + e reads as a number above 10 * e, so
      it is served for f at any time up to 10 * e. */
  lemma ExpiryBypass(req: Request, f: string, t: int, later: int, hash: Hasher)
    requires FileName(req.url.pathname) == Some(f)
    requires t + ExpirySeconds >= 0
    requires GetParam(req.url.query, "sig") == Some(Signature(hash, f + "9", IntToString(t + ExpirySeconds), SecretKey))
    requires GetParam(req.url.query, "expiry") == Some("9" + IntToString(t + ExpirySeconds))
    requires later <= 10 * (t + ExpirySeconds)
    ensures Decide(req, later, hash) == Proxy(f, GetParam(req.url.query, "dl") == Some("true"))
  {
    var n: nat := t + ExpirySeconds;
    PrefixedExpiryHolds(n, later);
    MessageBoundaryShift(hash, f, '9', IntToString(n), SecretKey);
    RedeemDecision(req, later, hash);
  }

  /** "9" before the text of n reads as more than 10 * n, so such an expiry
      holds at any time up to 10 * n. */
  lemma PrefixedExpiryHolds(n: nat, later: int)
    requires later <= 10 * n
    ensures !IsExpired(Some("9" + IntToString(n)), later)
  {
    var e := IntToString(n);
    assert e == NatToDecimal(n);
    ParseIntOfPrefixedNatural('9', n);
    var p := Pow10(|e|);
    assert p >= n + 1;
    assert 9 * p >= 9 * (n + 1);
    assert ParseInt("9" + e) == Int(9 * p + n);
  }

  /** The checks on a signed link with the separated message: the same as
      `Validate`, with `SeparatedSignature` in place of `Signature`. */
  function ValidateSeparated(query: seq<Param>, fileName: string, signature: string, now: int, hash: Hasher): Decision
  {
    var expiry := GetParam(query, "expiry");
    if IsExpired(expiry, now) then LinkExpired
    else if signature != SeparatedSignature(hash, fileName, JsString(expiry), SecretKey) then InvalidSignature
    else Proxy(fileName, GetParam(query, "dl") == Some("true"))
  }

  /** With the separated message, a link whose `sig` was minted for file F
      with expiry T is served only for F itself, only with `expiry` exactly
      the text of T, and only up to time T, unless the presented message and
      the minted one are different messages with the same digest. */
  lemma SeparatedLinkIsItsOwnMint(query: seq<Param>, f: string, mintedFile: string, mintedExpiry: int, now: int, hash: Hasher)
    requires '/' !in f && '/' !in mintedFile
    requires GetParam(query, "sig") == Some(SeparatedSignature(hash, mintedFile, IntToString(mintedExpiry), SecretKey))
    requires var presented := SeparatedMessage(f, JsString(GetParam(query, "expiry")), SecretKey);
      var minted := SeparatedMessage(mintedFile, IntToString(mintedExpiry), SecretKey);
      hash(presented) == hash(minted) ==> presented == minted
    requires ValidateSeparated(query, f, GetParam(query, "sig").value, now, hash).Proxy?
    ensures f == mintedFile
    ensures GetParam(query, "expiry") == Some(IntToString(mintedExpiry))
    ensures now <= mintedExpiry
  {
    var expiry := GetParam(query, "expiry");
    var presented := JsString(expiry);
    var sig := SeparatedSignature(hash, mintedFile, IntToString(mintedExpiry), SecretKey);
    assert sig == SeparatedSignature(hash, f, presented, SecretKey);
    assert HexDecode(sig) == hash(SeparatedMessage(f, presented, SecretKey));
    SeparatedMessageInjective(f, presented, mintedFile, IntToString(mintedExpiry), SecretKey);
    if expiry.None? {
      assert false;
    }
    ExpiryOfDecimal(mintedExpiry, now);
  }

  /** With the separated message, the link minted for F with expiry T is
      served for F at any time up to T. */
  lemma SeparatedLinkAccepted(query: seq<Param>, mintedFile: string, mintedExpiry: int, now: int, hash: Hasher)
    requires GetParam(query, "sig") == Some(SeparatedSignature(hash, mintedFile, IntToString(mintedExpiry), SecretKey))
    requires GetParam(query, "expiry") == Some(IntToString(mintedExpiry))
    requires now <= mintedExpiry
    ensures ValidateSeparated(query, mintedFile, GetParam(query, "sig").value, now, hash) ==
      Proxy(mintedFile, GetParam(query, "dl") == Some("true"))
  {
    ExpiryOfDecimal(mintedExpiry, now);
  }
}

=== FILE: headers.dfy ===
/** A `Headers` object of the WHATWG Fetch Standard: header
    names compare case-insensitively (byte-lowercase, ASCII letters only).
    The list is kept as a map from the lowercased name to the value. */
module Headers {
  import opened Wrappers

  function LowerChar(c: char): char
  {
    if 'A' <= c <= 'Z' then (c as int - 'A' as int + 'a' as int) as char else c
  }

  predicate IsLowerName(s: string) { forall i :: 0 <= i < |s| ==> !('A' <= s[i] <= 'Z') }

  /** Byte-lowercase: ASCII upper-case letters become lower-case. */
  function Lower(s: string): (r: string)
    ensures |r| == |s| && IsLowerName(r)
    ensures IsLowerName(s) ==> r == s
    ensures forall i :: 0 <= i < |s| ==>
      r[i] == s[i] || ('A' <= s[i] <= 'Z' && r[i] as int == s[i] as int + 32)
  {
    seq(|s|, i requires 0 <= i < |s| => LowerChar(s[i]))
  }

  /** A header list: every name is stored lowercased. */
  type HeaderMap = m: map<string, string> | forall k :: k in m ==> IsLowerName(k)

  /** `headers.get(name)`, null when absent. */
  function GetHeader(m: HeaderMap, name: string): (r: Option<string>)
    ensures r.Some? <==> Lower(name) in m
  {
    if Lower(name) in m then Some(m[Lower(name)]) else None
  }

  /** `headers.set(name, value)`. */
  function SetHeader(m: HeaderMap, name: string, value: string): HeaderMap
  {
    m[Lower(name) := value]
  }

  /** After `set`, the header named `name`, in any case, has exactly `value`;
      every other header is untouched and no other name appears. */
  lemma SetHeaderSpec(m: HeaderMap, name: string, value: string)
    ensures forall n :: Lower(n) == Lower(name) ==> GetHeader(SetHeader(m, name, value), n) == Some(value)
    ensures forall n :: Lower(n) != Lower(name) ==> GetHeader(SetHeader(m, name, value), n) == GetHeader(m, n)
    ensures SetHeader(m, name, value).Keys == m.Keys + {Lower(name)}
  {
  }

  /** `headers.delete(name)`. */
  function DeleteHeader(m: HeaderMap, name: string): HeaderMap
  {
    m - {Lower(name)}
  }

  /** After `delete`, the header named `name`, in any case, is gone; every
      other header is untouched. */
  lemma DeleteHeaderSpec(m: HeaderMap, name: string)
    ensures forall n :: Lower(n) == Lower(name) ==> GetHeader(DeleteHeader(m, name), n) == None
    ensures forall n :: Lower(n) != Lower(name) ==> GetHeader(DeleteHeader(m, name), n) == GetHeader(m, n)
    ensures DeleteHeader(m, name).Keys == m.Keys - {Lower(name)}
  {
  }

  /** A `Headers` object that the gate builds and then changes in place. */
  class Headers {
    var list: HeaderMap

    /** `new Headers(init)`: a copy of another header list. */
    constructor (init: HeaderMap)
      ensures list == init
    {
      list := init;
    }

    method Set(name: string, value: string)
      modifies this
      ensures list == SetHeader(old(list), name, value)
    {
      list := list[Lower(name) := value];
    }

    method Delete(name: string)
      modifies this
      ensures list == DeleteHeader(old(list), name)
    {
      list := list - {Lower(name)};
    }
  }
}

=== FILE: hex.dfy ===
/** The lowercase hexadecimal encoding of a digest, as
    `hashArray.map(b => b.toString(16).padStart(2, '0')).join('')` does it. */
module Hex {

  type Byte = b: int | 0 <= b < 256

  predicate IsLowerHexDigit(c: char) { '0' <= c <= '9' || 'a' <= c <= 'f' }

  predicate IsLowerHex(s: string) { forall i :: 0 <= i < |s| ==> IsLowerHexDigit(s[i]) }

  /** The digit for `d` that `toString(16)` writes: lowercase letters. */
  function HexDigit(d: nat): (c: char)
    requires d < 16
    ensures IsLowerHexDigit(c) && HexValue(c) == d
  {
    if d < 10 then ('0' as int + d) as char else ('a' as int + d - 10) as char
  }

  /** The value of a lowercase hexadecimal digit (0 for any other character). */
  function HexValue(c: char): (v: nat)
    ensures v < 16
  {
    if '0' <= c <= '9' then c as int - '0' as int
    else if 'a' <= c <= 'f' then c as int - 'a' as int + 10
    else 0
  }

  /** `n.toString(16)`: the shortest base-16 numeral of `n`. */
  function Radix16(n: nat): (r: string)
    ensures |r| >= 1 && IsLowerHex(r)
    ensures n < 16 <==> |r| == 1
    decreases n
  {
    if n < 16 then [HexDigit(n)] else Radix16(n / 16) + [HexDigit(n % 16)]
  }

  /** `s.padStart(width, fill)` for a one-character `fill`. */
  function PadStart(s: string, width: nat, fill: char): (r: string)
    ensures |r| == if |s| >= width then |s| else width
    ensures r[|r| - |s|..] == s
    ensures forall i :: 0 <= i < |r| - |s| ==> r[i] == fill
  {
    if |s| >= width then s else seq(width - |s|, _ => fill) + s
  }

  /** One byte as two digits, high nibble first. */
  function HexByte(b: Byte): (r: string)
    ensures |r| == 2 && IsLowerHex(r)
  {
    [HexDigit(b / 16), HexDigit(b % 16)]
  }

  /** `b.toString(16).padStart(2, '0')` is the byte's two digits: one-digit
      numerals get a leading zero, and no byte needs more than two. */
  lemma PaddedRadix16IsHexByte(b: Byte)
    ensures PadStart(Radix16(b), 2, '0') == HexByte(b)
  {
    if b >= 16 {
      assert Radix16(b / 16) == [HexDigit(b / 16)];
    }
  }

  /** The bytes' two-digit numerals, joined with nothing between them. */
  function HexEncode(bytes: seq<Byte>): (r: string)
    ensures |r| == 2 * |bytes|
  {
    if |bytes| == 0 then "" else HexByte(bytes[0]) + HexEncode(bytes[1..])
  }

  /** Lowercase hexadecimal text stays so under concatenation. */
  lemma IsLowerHexConcat(a: string, b: string)
    requires IsLowerHex(a) && IsLowerHex(b)
    ensures IsLowerHex(a + b)
  {
    forall i | 0 <= i < |a + b|
      ensures IsLowerHexDigit((a + b)[i])
    {
      if i >= |a| {
        assert (a + b)[i] == b[i - |a|];
      }
    }
  }

  /** The encoding uses only lowercase hexadecimal digits. */
  lemma {:induction false} HexEncodeIsLowerHex(bytes: seq<Byte>)
    ensures IsLowerHex(HexEncode(bytes))
  {
    if |bytes| > 0 {
      HexEncodeIsLowerHex(bytes[1..]);
      IsLowerHexConcat(HexByte(bytes[0]), HexEncode(bytes[1..]));
    }
  }

  /** The inverse of `HexEncode`: each pair of digits is a byte. */
  function HexDecode(s: string): (r: seq<Byte>)
    ensures |r| == |s| / 2
  {
    if |s| < 2 then []
    else [HexValue(s[0]) * 16 + HexValue(s[1])] + HexDecode(s[2..])
  }

  /** A byte's two digits decode to the byte. */
  lemma HexByteDecodes(b: Byte)
    ensures HexValue(HexByte(b)[0]) * 16 + HexValue(HexByte(b)[1]) == b
  {
  }

  /** Decoding a byte's two digits in front of more text gives the byte,
      then the decoding of that text. */
  lemma HexDecodeByte(b: Byte, rest: string)
    ensures HexDecode(HexByte(b) + rest) == [b] + HexDecode(rest)
  {
    var s := HexByte(b) + rest;
    assert s[2..] == rest;
    HexByteDecodes(b);
  }

  /** Decoding an encoding gives the bytes back. */
  lemma {:induction false} HexDecodeOfEncode(bytes: seq<Byte>)
    ensures HexDecode(HexEncode(bytes)) == bytes
  {
    if |bytes| > 0 {
      HexDecodeByte(bytes[0], HexEncode(bytes[1..]));
      HexDecodeOfEncode(bytes[1..]);
      assert bytes == [bytes[0]] + bytes[1..];
    }
  }

  /** Distinct byte strings have distinct encodings. */
  lemma HexEncodeInjective(a: seq<Byte>, b: seq<Byte>)
    requires HexEncode(a) == HexEncode(b)
    ensures a == b
  {
    HexDecodeOfEncode(a);
    HexDecodeOfEncode(b);
  }
}

=== FILE: numbers.dfy ===
/** The two number/string conversions the gate relies on: JavaScript's
    ToString of an integral Number (used when `expiry` is concatenated into the
    signed message and written into the query) and the global `parseInt` of
    section 19.2.5 of ECMA-262, called with no radix. Numbers are exact
    integers here; see README for what that leaves out. */
module Numbers {

  predicate IsDecimalDigit(c: char) { '0' <= c <= '9' }

  function DecimalDigit(d: nat): (c: char)
    requires d < 10
    ensures IsDecimalDigit(c) && DigitValue(c) == d
  {
    ('0' as int + d) as char
  }

  /** ToString of a non-negative integral Number: its decimal digits, most
      significant first, with no leading zero. */
  function NatToDecimal(n: nat): (r: string)
    ensures |r| >= 1
    ensures forall i :: 0 <= i < |r| ==> IsDecimalDigit(r[i])
    ensures |r| > 1 ==> r[0] != '0'
    ensures r[0] == '0' <==> n == 0
    decreases n
  {
    if n < 10 then [DecimalDigit(n)] else NatToDecimal(n / 10) + [DecimalDigit(n % 10)]
  }

  /** ToString of an integral Number: a minus sign for negative values. */
  function IntToString(i: int): (r: string)
    ensures |r| >= 1
    ensures r[0] == '-' <==> i < 0
  {
    if i < 0 then "-" + NatToDecimal(-i) else NatToDecimal(i)
  }

  /** What `parseInt` returns: NaN, or an integral Number (a negative zero is
      the integer 0 here, which compares the same way). */
  datatype Number = NaN | Int(value: int)

  /** The WhiteSpace and LineTerminator code points of ECMA-262 (sections
      12.2 and 12.3), which `parseInt` skips before the number. */
  predicate IsStrWhiteSpace(c: char)
  {
    var n := c as int;
    // WhiteSpace other than the Zs category
    n == 0x09 || n == 0x0B || n == 0x0C || n == 0xFEFF
    // the Zs (space separator) category
    || n == 0x20 || n == 0xA0 || n == 0x1680 || (0x2000 <= n <= 0x200A)
    || n == 0x202F || n == 0x205F || n == 0x3000
    // LineTerminator
    || n == 0x0A || n == 0x0D || n == 0x2028 || n == 0x2029
  }

  /** TrimString(s, start): drop the leading white space. */
  function TrimStart(s: string): string
  {
    if |s| > 0 && IsStrWhiteSpace(s[0]) then TrimStart(s[1..]) else s
  }

  /** What is trimmed is all white space, and what is left is a suffix that
      does not start with white space. */
  lemma {:induction false} TrimStartSpec(s: string)
    ensures var r := TrimStart(s);
      && |r| <= |s| && r == s[|s| - |r|..]
      && (|r| == 0 || !IsStrWhiteSpace(r[0]))
      && forall i :: 0 <= i < |s| - |r| ==> IsStrWhiteSpace(s[i])
  {
    if |s| > 0 && IsStrWhiteSpace(s[0]) {
      TrimStartSpec(s[1..]);
      var r := TrimStart(s);
      assert r == TrimStart(s[1..]);
      forall i | 1 <= i < |s| - |r|
        ensures IsStrWhiteSpace(s[i])
      {
        assert s[i] == s[1..][i - 1];
      }
    }
  }

  /** The value of `c` as a digit of a radix up to 36 ('0'..'9', then 'a' or
      'A' for 10 and so on); 36 when `c` is a digit of no such radix. */
  function DigitValue(c: char): (d: nat)
    ensures d <= 36
    ensures d < 10 <==> IsDecimalDigit(c)
  {
    if '0' <= c <= '9' then c as int - '0' as int
    else if 'a' <= c <= 'z' then c as int - 'a' as int + 10
    else if 'A' <= c <= 'Z' then c as int - 'A' as int + 10
    else 36
  }

  /** The longest prefix of `s` made of digits of `radix` (step 11 of parseInt). */
  function DigitPrefix(s: string, radix: nat): (z: string)
    ensures |z| <= |s| && z == s[..|z|]
    ensures forall i :: 0 <= i < |z| ==> DigitValue(z[i]) < radix
    ensures |z| == |s| || DigitValue(s[|z|]) >= radix
  {
    if |s| > 0 && DigitValue(s[0]) < radix then [s[0]] + DigitPrefix(s[1..], radix) else []
  }

  /** The integer that the digit string `z` denotes in `radix`. */
  function DigitsValue(z: string, radix: nat): nat
  {
    if |z| == 0 then 0 else DigitsValue(z[..|z| - 1], radix) * radix + DigitValue(z[|z| - 1])
  }

  /** `parseInt(s)` with the radix left undefined: skip white space, take an
      optional sign, then read the magnitude. */
  function ParseInt(s: string): (r: Number)
  {
    var t := TrimStart(s);
    var negative := |t| > 0 && t[0] == '-';
    ParseMagnitude(Unsigned(s), negative)
  }

  /** What `parseInt` reads digits from: the text after the leading white
      space and one optional sign. */
  function Unsigned(s: string): string
  {
    var t := TrimStart(s);
    if |t| > 0 && (t[0] == '-' || t[0] == '+') then t[1..] else t
  }

  /** The steps of `parseInt` after the sign: base 16 after a "0x" or "0X"
      prefix and base 10 otherwise, stopping at the first character that is
      not a digit, and NaN when no digit was read. */
  function ParseMagnitude(u: string, negative: bool): (r: Number)
  {
    var hex := |u| >= 2 && u[0] == '0' && (u[1] == 'x' || u[1] == 'X');
    var radix := if hex then 16 else 10;
    var digits := DigitPrefix(if hex then u[2..] else u, radix);
    if |digits| == 0 then NaN
    else
      var magnitude: int := DigitsValue(digits, radix);
      Int(if negative then -magnitude else magnitude)
  }

  /** Decimal digits denote the number they were written from. */
  lemma {:induction false} DecimalValue(n: nat)
    ensures DigitsValue(NatToDecimal(n), 10) == n
  {
    if n >= 10 {
      var d := NatToDecimal(n);
      assert d[..|d| - 1] == NatToDecimal(n / 10);
      DecimalValue(n / 10);
    }
  }

  /** The digit prefix stops exactly where the digits stop. */
  lemma {:induction false} DigitPrefixOf(d: string, rest: string, radix: nat)
    requires forall i :: 0 <= i < |d| ==> DigitValue(d[i]) < radix
    requires |rest| == 0 || DigitValue(rest[0]) >= radix
    ensures DigitPrefix(d + rest, radix) == d
  {
    if |d| > 0 {
      assert (d + rest)[1..] == d[1..] + rest;
      DigitPrefixOf(d[1..], rest, radix);
      assert d == [d[0]] + d[1..];
    } else {
      assert d + rest == rest;
    }
  }

  /** The decimal digits of `m`, followed by characters that cannot continue
      them, have the magnitude `m`. */
  lemma DecimalMagnitude(m: nat, rest: string, negative: bool)
    requires |rest| == 0 || !IsDecimalDigit(rest[0])
    requires m == 0 && |rest| > 0 ==> rest[0] != 'x' && rest[0] != 'X'
    ensures ParseMagnitude(NatToDecimal(m) + rest, negative) == Int(if negative then -(m as int) else m)
  {
    var d := NatToDecimal(m);
    var u := d + rest;
    if |u| >= 2 && u[0] == '0' {
      assert m == 0 && |d| == 1;
      assert u[1] == rest[0];
    }
    DigitPrefixOf(d, rest, 10);
    DecimalValue(m);
  }

  /** A string starting with a digit is read as a non-negative magnitude. */
  lemma ParseIntOfDigits(u: string)
    requires |u| > 0 && IsDecimalDigit(u[0])
    ensures ParseInt(u) == ParseMagnitude(u, false)
  {
    assert TrimStart(u) == u;
  }

  /** A minus sign followed by a digit is read as a negated magnitude. */
  lemma ParseIntOfMinus(u: string)
    requires |u| > 0 && IsDecimalDigit(u[0])
    ensures ParseInt("-" + u) == ParseMagnitude(u, true)
  {
    var s := "-" + u;
    assert TrimStart(s) == s;
    assert s[1..] == u;
  }

  /** `parseInt` reads back what ToString wrote, also when other characters
      follow, as long as they cannot continue the number. */
  lemma ParseIntOfIntToString(i: int, rest: string)
    requires |rest| == 0 || !IsDecimalDigit(rest[0])
    requires i == 0 && |rest| > 0 ==> rest[0] != 'x' && rest[0] != 'X'
    ensures ParseInt(IntToString(i) + rest) == Int(i)
  {
    if i < 0 {
      var m: nat := -i;
      assert IntToString(i) == "-" + NatToDecimal(m);
      assert IntToString(i) + rest == "-" + (NatToDecimal(m) + rest);
      ParseIntOfNegative(m, rest);
      assert -(m as int) == i;
    } else {
      var m: nat := i;
      assert IntToString(i) == NatToDecimal(m);
      ParseIntOfNatural(m, rest);
    }
  }

  /** The decimal text of a non-negative integer reads back as that integer. */
  lemma ParseIntOfNatural(m: nat, rest: string)
    requires |rest| == 0 || !IsDecimalDigit(rest[0])
    requires m == 0 && |rest| > 0 ==> rest[0] != 'x' && rest[0] != 'X'
    ensures ParseInt(NatToDecimal(m) + rest) == Int(m)
  {
    var d := NatToDecimal(m);
    assert IsDecimalDigit((d + rest)[0]);
    ParseIntOfDigits(d + rest);
    DecimalMagnitude(m, rest, false);
  }

  /** A minus sign before the decimal text of a positive integer reads back
      as its negation. */
  lemma ParseIntOfNegative(m: nat, rest: string)
    requires m > 0
    requires |rest| == 0 || !IsDecimalDigit(rest[0])
    ensures ParseInt("-" + (NatToDecimal(m) + rest)) == Int(-(m as int))
  {
    var d := NatToDecimal(m);
    assert IsDecimalDigit((d + rest)[0]);
    ParseIntOfMinus(d + rest);
    DecimalMagnitude(m, rest, true);
  }

  /** A string in which no decimal digit follows the leading white space and
      the optional sign (a word such as "null", "-abc", " abc" or "+", for
      some) parses to NaN. */
  lemma ParseIntOfNonNumeric(s: string)
    requires |Unsigned(s)| == 0 || !IsDecimalDigit(Unsigned(s)[0])
    ensures ParseInt(s) == NaN
  {
  }

  /** Leading white space does not change the parsed value. */
  lemma ParseIntSkipsWhiteSpace(c: char, s: string)
    requires IsStrWhiteSpace(c)
    ensures ParseInt([c] + s) == ParseInt(s)
  {
    assert ([c] + s)[1..] == s;
  }

  /** 10 to the power k. */
  function Pow10(k: nat): (p: nat)
    ensures p >= 1
  {
    if k == 0 then 1 else 10 * Pow10(k - 1)
  }

  /** k decimal digits denote less than 10^k. */
  lemma {:induction false} DigitsValueBelow(z: string)
    requires forall i :: 0 <= i < |z| ==> IsDecimalDigit(z[i])
    ensures DigitsValue(z, 10) < Pow10(|z|)
  {
    if |z| > 0 {
      DigitsValueBelow(z[..|z| - 1]);
    }
  }

  /** (d * p + v) * 10 == d * (10 * p) + v * 10. */
  lemma Distribute(d: nat, p: nat, v: nat)
    ensures (d * p + v) * 10 == d * (10 * p) + v * 10
  {
  }

  /** A digit written in front of k digits adds its value times 10^k. */
  lemma {:induction false} DigitsValuePrepend(c: char, z: string)
    ensures DigitsValue([c] + z, 10) == DigitValue(c) * Pow10(|z|) + DigitsValue(z, 10)
  {
    var w := [c] + z;
    if |z| == 0 {
      assert w[..0] == [];
    } else {
      var front := z[..|z| - 1];
      assert w[..|w| - 1] == [c] + front;
      assert w[|w| - 1] == z[|z| - 1];
      DigitsValuePrepend(c, front);
      var d, p, v := DigitValue(c), Pow10(|front|), DigitsValue(front, 10);
      var last := DigitValue(z[|z| - 1]);
      assert DigitsValue(w, 10) == DigitsValue([c] + front, 10) * 10 + last;
      assert DigitsValue([c] + front, 10) == d * p + v;
      assert DigitsValue(z, 10) == v * 10 + last;
      assert Pow10(|z|) == 10 * p;
      Distribute(d, p, v);
    }
  }

  /** A digit c written in front of the decimal text of n reads as
      c * 10^k + n, where k is the length of that text and 10^k exceeds n. */
  lemma ParseIntOfPrefixedNatural(c: char, n: nat)
    requires '1' <= c <= '9'
    ensures var k := |NatToDecimal(n)|;
      && n < Pow10(k)
      && ParseInt([c] + NatToDecimal(n)) == Int(DigitValue(c) * Pow10(k) + n)
  {
    var d := NatToDecimal(n);
    var u := [c] + d;
    ParseIntOfDigits(u);
    assert forall i :: 0 <= i < |u| ==> DigitValue(u[i]) < 10 by {
      forall i | 0 <= i < |u|
        ensures DigitValue(u[i]) < 10
      {
        if i > 0 {
          assert u[i] == d[i - 1];
        }
      }
    }
    DigitPrefixOf(u, "", 10);
    assert u + "" == u;
    DigitsValuePrepend(c, d);
    DecimalValue(n);
    DigitsValueBelow(d);
  }
}

=== FILE: path.dfy ===
/** The file name the gate serves: the last non-empty segment of the URL
    path, and only when the path has at least two of them
    (`url.pathname.split('/').filter(p => p)`). */
module Path {
  import opened Wrappers
  import opened Text

  /** The non-empty segments of a path, in order. */
  function Segments(pathname: string): seq<string>
  {
    NonEmpty(Split(pathname, '/'))
  }

  /** `pathParts.length > 1 ? pathParts[pathParts.length - 1] : null`. */
  function FileName(pathname: string): Option<string>
  {
    var segments := Segments(pathname);
    if |segments| > 1 then Some(segments[|segments| - 1]) else None
  }

  /** Segments are non-empty and contain no slash. */
  lemma SegmentsAreNames(pathname: string)
    ensures forall i :: 0 <= i < |Segments(pathname)| ==>
      Segments(pathname)[i] != "" && '/' !in Segments(pathname)[i]
  {
    var parts := Split(pathname, '/');
    SplitPiecesAvoidSeparator(pathname, '/');
    NonEmptySpec(parts);
    forall i | 0 <= i < |Segments(pathname)|
      ensures '/' !in Segments(pathname)[i]
    {
      assert Segments(pathname)[i] in parts;
    }
  }

  /** A file name is a non-empty segment without a slash. */
  lemma FileNameIsSegment(pathname: string)
    ensures FileName(pathname).Some? ==>
      FileName(pathname).value != "" && '/' !in FileName(pathname).value
  {
    SegmentsAreNames(pathname);
  }

  /** A slash-free segment is a segment; the empty one is none. */
  lemma SegmentsOfOne(s: string)
    requires '/' !in s
    ensures Segments(s) == if s == "" then [] else [s]
  {
    SplitWithoutSeparator(s, '/');
    assert Segments(s) == NonEmpty([s]);
    assert [s][1..] == [];
    assert NonEmpty([s]) == if s == "" then NonEmpty([]) else [s] + NonEmpty([]);
  }

  /** Slashes separate segments wherever they stand: a path joined from two
      at a slash has the segments of both. */
  lemma SegmentsOfConcat(a: string, b: string)
    ensures Segments(a + "/" + b) == Segments(a) + Segments(b)
  {
    SplitAtSeparator(a, b, '/');
    NonEmptyAppend(Split(a, '/'), Split(b, '/'));
  }

  /** For the path "/s1/s2/.../sn" made of non-empty slash-free segments,
      the file name is sn when n >= 2 and absent otherwise. */
  lemma FileNameOfPath(segments: seq<string>)
    requires |segments| >= 1
    requires forall i :: 0 <= i < |segments| ==> segments[i] != "" && '/' !in segments[i]
    ensures FileName("/" + Join(segments, '/')) ==
      if |segments| > 1 then Some(segments[|segments| - 1]) else None
  {
    SegmentsOfConcat("", Join(segments, '/'));
    assert "" + "/" + Join(segments, '/') == "/" + Join(segments, '/');
    SegmentsOfOne("");
    SplitOfJoin(segments, '/');
    NonEmptyKeepsNonEmpty(segments);
  }

  /** A single segment is not a file name: "/movie.mp4" goes to the admin
      panel. */
  lemma SingleSegmentHasNoFileName(s: string)
    requires '/' !in s
    ensures FileName("/" + s) == None
  {
    SegmentsOfConcat("", s);
    assert "" + "/" + s == "/" + s;
    SegmentsOfOne("");
    SegmentsOfOne(s);
  }

  /** A doubled slash separates no more segments than a single one. */
  lemma SegmentsOfDoubledSlash(a: string, b: string)
    ensures Segments(a + "//" + b) == Segments(a + "/" + b)
  {
    SegmentsOfConcat(a, "/" + b);
    assert a + "/" + ("/" + b) == a + "//" + b;
    SegmentsOfConcat("", b);
    assert "" + "/" + b == "/" + b;
    SegmentsOfOne("");
    SegmentsOfConcat(a, b);
  }

  /** A trailing slash adds no segment. */
  lemma SegmentsOfTrailingSlash(a: string)
    ensures Segments(a + "/") == Segments(a)
  {
    SegmentsOfConcat(a, "");
    assert a + "/" + "" == a + "/";
    SegmentsOfOne("");
    assert Segments(a) + [] == Segments(a);
  }

  /** Empty segments do not count: doubled and trailing slashes leave the file
      name as it was. */
  lemma FileNameIgnoresEmptySegments(a: string, b: string)
    ensures FileName(a + "//" + b) == FileName(a + "/" + b)
    ensures FileName(a + "/") == FileName(a)
  {
    SegmentsOfDoubledSlash(a, b);
    SegmentsOfTrailingSlash(a);
  }
}

=== FILE: search_params.dfy ===
/** The query of a URL as `URLSearchParams` holds it: an ordered list of
    name-value pairs in which a name may occur more than once. `get` and `set`
    follow section 6.2 of the WHATWG URL Standard. */
module SearchParams {
  import opened Wrappers

  datatype Param = Param(name: string, value: string)

  /** Some pair is named `name`. */
  predicate HasName(ps: seq<Param>, name: string)
  {
    |ps| > 0 && (ps[0].name == name || HasName(ps[1..], name))
  }

  /** How many pairs are named `name`. */
  function Count(ps: seq<Param>, name: string): nat
  {
    if |ps| == 0 then 0 else (if ps[0].name == name then 1 else 0) + Count(ps[1..], name)
  }

  /** The count is zero exactly when the name is absent. */
  lemma {:induction false} CountSpec(ps: seq<Param>, name: string)
    ensures Count(ps, name) == 0 <==> !HasName(ps, name)
    ensures Count(ps, name) <= |ps|
  {
    if |ps| > 0 {
      CountSpec(ps[1..], name);
    }
  }

  /** The position of the first pair named `name`. */
  function FirstIndex(ps: seq<Param>, name: string): (i: nat)
    requires HasName(ps, name)
    ensures i < |ps| && ps[i].name == name
    ensures forall j :: 0 <= j < i ==> ps[j].name != name
  {
    if ps[0].name == name then 0 else 1 + FirstIndex(ps[1..], name)
  }

  /** `get(name)`: the value of the first pair named `name`, or null. */
  function GetParam(ps: seq<Param>, name: string): Option<string>
  {
    if |ps| == 0 then None
    else if ps[0].name == name then Some(ps[0].value)
    else GetParam(ps[1..], name)
  }

  /** `get` is null exactly when the name is absent, and otherwise the value
      of the first pair with that name. */
  lemma {:induction false} GetParamSpec(ps: seq<Param>, name: string)
    ensures GetParam(ps, name).None? <==> !HasName(ps, name)
    ensures GetParam(ps, name).Some? ==> ps[FirstIndex(ps, name)] == Param(name, GetParam(ps, name).value)
  {
    if |ps| > 0 && ps[0].name != name {
      GetParamSpec(ps[1..], name);
    }
  }

  /** The pairs not named `name`, in their order. */
  function Without(ps: seq<Param>, name: string): seq<Param>
  {
    if |ps| == 0 then []
    else if ps[0].name == name then Without(ps[1..], name)
    else [ps[0]] + Without(ps[1..], name)
  }

  /** Nothing named `name` is left. */
  lemma {:induction false} WithoutRemoves(ps: seq<Param>, name: string)
    ensures !HasName(Without(ps, name), name)
  {
    if |ps| > 0 {
      WithoutRemoves(ps[1..], name);
      if ps[0].name != name {
        assert ([ps[0]] + Without(ps[1..], name))[1..] == Without(ps[1..], name);
      }
    }
  }

  /** One step of `Without` on a list given as first pair and rest. */
  lemma WithoutCons(p: Param, rest: seq<Param>, name: string)
    ensures Without([p] + rest, name) == if p.name == name then Without(rest, name) else [p] + Without(rest, name)
  {
    assert ([p] + rest)[1..] == rest;
  }

  /** Removing the pairs of one name leaves the values and counts of the
      others. */
  lemma {:induction false} GetParamWithout(ps: seq<Param>, removed: string, name: string)
    requires name != removed
    ensures GetParam(Without(ps, removed), name) == GetParam(ps, name)
    ensures Count(Without(ps, removed), name) == Count(ps, name)
  {
    if |ps| > 0 {
      GetParamWithout(ps[1..], removed, name);
      if ps[0].name != removed {
        assert ([ps[0]] + Without(ps[1..], removed))[1..] == Without(ps[1..], removed);
      }
    }
  }

  /** Removing two names gives the same list in either order. */
  lemma {:induction false} WithoutCommutes(ps: seq<Param>, a: string, b: string)
    ensures Without(Without(ps, a), b) == Without(Without(ps, b), a)
  {
    if |ps| > 0 {
      var p, rest := ps[0], ps[1..];
      WithoutCommutes(rest, a, b);
      assert ps == [p] + rest;
      WithoutCons(p, Without(rest, a), b);
      WithoutCons(p, Without(rest, b), a);
    }
  }

  /** A list without the name has nothing more to remove. */
  lemma {:induction false} WithoutAbsent(ps: seq<Param>, name: string)
    requires !HasName(ps, name)
    ensures Without(ps, name) == ps
  {
    if |ps| > 0 {
      WithoutAbsent(ps[1..], name);
      assert ps == [ps[0]] + ps[1..];
    }
  }

  /** `set(name, value)`: when some pair is named `name`, the first one gets
      `value` in place and the others are removed; otherwise the pair is
      appended. */
  function SetParam(ps: seq<Param>, name: string, value: string): seq<Param>
  {
    if |ps| == 0 then [Param(name, value)]
    else if ps[0].name == name then [Param(name, value)] + Without(ps[1..], name)
    else [ps[0]] + SetParam(ps[1..], name, value)
  }

  /** One step of `SetParam` on a list given as first pair and rest. */
  lemma SetParamCons(p: Param, rest: seq<Param>, name: string, value: string)
    ensures SetParam([p] + rest, name, value) ==
      if p.name == name then [Param(name, value)] + Without(rest, name) else [p] + SetParam(rest, name, value)
  {
    assert ([p] + rest)[1..] == rest;
  }

  /** After `set`, `get` gives the new value. */
  lemma {:induction false} SetParamGet(ps: seq<Param>, name: string, value: string)
    ensures HasName(SetParam(ps, name, value), name)
    ensures GetParam(SetParam(ps, name, value), name) == Some(value)
  {
    if |ps| > 0 && ps[0].name != name {
      SetParamGet(ps[1..], name, value);
      SetParamCons(ps[0], ps[1..], name, value);
      assert ps == [ps[0]] + ps[1..];
    }
  }

  /** After `set`, the name occurs exactly once. */
  lemma {:induction false} SetParamCount(ps: seq<Param>, name: string, value: string)
    ensures Count(SetParam(ps, name, value), name) == 1
  {
    var r := SetParam(ps, name, value);
    if |ps| == 0 {
    } else if ps[0].name == name {
      var rest := Without(ps[1..], name);
      assert r[1..] == rest;
      WithoutRemoves(ps[1..], name);
      CountSpec(rest, name);
    } else {
      SetParamCount(ps[1..], name, value);
      assert r[1..] == SetParam(ps[1..], name, value);
    }
  }

  /** After `set`, the pairs of every other name are as they were, in order. */
  lemma {:induction false} SetParamWithout(ps: seq<Param>, name: string, value: string)
    ensures Without(SetParam(ps, name, value), name) == Without(ps, name)
  {
    var r := SetParam(ps, name, value);
    if |ps| == 0 {
    } else if ps[0].name == name {
      var rest := Without(ps[1..], name);
      assert r[1..] == rest;
      WithoutRemoves(ps[1..], name);
      WithoutAbsent(rest, name);
    } else {
      SetParamWithout(ps[1..], name, value);
      assert r[1..] == SetParam(ps[1..], name, value);
    }
  }

  /** An existing name keeps the position of its first occurrence; a new one
      is appended. */
  lemma {:induction false} SetParamPosition(ps: seq<Param>, name: string, value: string)
    ensures HasName(ps, name) ==>
      HasName(SetParam(ps, name, value), name) && FirstIndex(SetParam(ps, name, value), name) == FirstIndex(ps, name)
    ensures !HasName(ps, name) ==> SetParam(ps, name, value) == ps + [Param(name, value)]
  {
    var r := SetParam(ps, name, value);
    if |ps| > 0 && ps[0].name != name {
      SetParamPosition(ps[1..], name, value);
      SetParamGet(ps[1..], name, value);
      assert r[1..] == SetParam(ps[1..], name, value);
      assert ps == [ps[0]] + ps[1..];
    }
  }

  /** After `set`, `get` gives the new value, the name occurs exactly once and
      at the position of its first earlier occurrence (at the end if there was
      none), and the pairs of every other name are as they were, in order. */
  lemma SetParamSpec(ps: seq<Param>, name: string, value: string)
    ensures var r := SetParam(ps, name, value);
      && GetParam(r, name) == Some(value)
      && HasName(r, name)
      && Count(r, name) == 1
      && Without(r, name) == Without(ps, name)
      && (HasName(ps, name) ==> FirstIndex(r, name) == FirstIndex(ps, name))
      && (!HasName(ps, name) ==> r == ps + [Param(name, value)])
  {
    SetParamGet(ps, name, value);
    SetParamCount(ps, name, value);
    SetParamWithout(ps, name, value);
    SetParamPosition(ps, name, value);
  }

  /** `set` leaves what `get` gives, and how often it occurs, for every
      other name. */
  lemma {:induction false} SetParamKeepsOthers(ps: seq<Param>, name: string, value: string, other: string)
    requires other != name
    ensures GetParam(SetParam(ps, name, value), other) == GetParam(ps, other)
    ensures Count(SetParam(ps, name, value), other) == Count(ps, other)
  {
    var r := SetParam(ps, name, value);
    if |ps| == 0 {
    } else if ps[0].name == name {
      assert r[1..] == Without(ps[1..], name);
      GetParamWithout(ps[1..], name, other);
    } else {
      SetParamKeepsOthers(ps[1..], name, value, other);
      assert r[1..] == SetParam(ps[1..], name, value);
    }
  }

  /** Moving one pair across a concatenation. */
  lemma AppendOne(front: seq<Param>, p: Param, back: seq<Param>)
    ensures front + ([p] + back) == (front + [p]) + back
  {
  }

  /** A pair list that `url.searchParams.set` updates in place. */
  class ParamList {
    var params: seq<Param>

    constructor (init: seq<Param>)
      ensures params == init
    {
      params := init;
    }

    /** `set(name, value)`, one pass over the list. */
    method Set(name: string, value: string)
      modifies this
      ensures params == SetParam(old(params), name, value)
    {
      ghost var ps := params;
      var rest := params;
      var out: seq<Param> := [];
      var found := false;
      while |rest| > 0
        invariant !found ==> SetParam(ps, name, value) == out + SetParam(rest, name, value)
        invariant found ==> SetParam(ps, name, value) == out + Without(rest, name)
      {
        var p := rest[0];
        ghost var tail := rest[1..];
        assert rest == [p] + tail;
        SetParamCons(p, tail, name, value);
        WithoutCons(p, tail, name);
        if p.name == name {
          if !found {
            AppendOne(out, Param(name, value), Without(tail, name));
            out := out + [Param(name, value)];
            found := true;
          }
        } else {
          AppendOne(out, p, Without(tail, name));
          AppendOne(out, p, SetParam(tail, name, value));
          out := out + [p];
        }
        rest := rest[1..];
      }
      if !found {
        out := out + [Param(name, value)];
      }
      params := out;
    }
  }
}

=== FILE: signer.dfy ===
/** `generateSignature`: the lowercase hexadecimal SHA-256 digest of the file
    name, the expiry and the secret written one after the other. The hash
    (with the UTF-8 encoding in front of it) is a parameter: any deterministic
    function with 32-byte results. */
module Signer {
  import opened Hex
  import opened Text

  /** The length of a SHA-256 digest in bytes (FIPS 180-4, section 6.2). */
  const DigestLength := 32

  type Digest = d: seq<Byte> | |d| == DigestLength witness seq(DigestLength, _ => 0)

  /** `crypto.subtle.digest('SHA-256', new TextEncoder().encode(msg))`. */
  type Hasher = string -> Digest

  /** The message that is hashed: `fileName + expiry + secret`. The expiry is
      already a string here: its decimal form when it is a number, the query
      text as received otherwise. */
  function Message(fileName: string, expiry: string, secret: string): (m: string)
    ensures |m| == |fileName| + |expiry| + |secret|
    ensures m[..|fileName|] == fileName && m[|m| - |secret|..] == secret
  {
    fileName + expiry + secret
  }

  /** The hexadecimal digest of a message: two lowercase digits per byte. */
  function SignMessage(hash: Hasher, m: string): (r: string)
    ensures |r| == 2 * DigestLength
    ensures IsLowerHex(r)
    ensures HexDecode(r) == hash(m)
  {
    var digest: Digest := hash(m);
    var r := HexEncode(digest);
    assert |r| == 2 * DigestLength;
    HexEncodeIsLowerHex(digest);
    HexDecodeOfEncode(digest);
    r
  }

  /** The signature over file name, expiry and secret. */
  function Signature(hash: Hasher, fileName: string, expiry: string, secret: string): (r: string)
    ensures |r| == 2 * DigestLength
    ensures IsLowerHex(r)
    ensures HexDecode(r) == hash(Message(fileName, expiry, secret))
  {
    SignMessage(hash, Message(fileName, expiry, secret))
  }

  /** Equal signatures come from equal digests: a signature made for one
      (file name, expiry) passes for another only through a hash collision of
      their messages or through two equal messages. */
  lemma SignatureDeterminesDigest(hash: Hasher, f1: string, e1: string, f2: string, e2: string, secret: string)
    requires Signature(hash, f1, e1, secret) == Signature(hash, f2, e2, secret)
    ensures hash(Message(f1, e1, secret)) == hash(Message(f2, e2, secret))
  {
  }

  /** The message does not mark where the file name ends and the expiry
      begins: a character moved from the end of the file name to the front of
      the expiry leaves the signature unchanged. */
  lemma MessageBoundaryShift(hash: Hasher, fileName: string, c: char, expiry: string, secret: string)
    ensures Signature(hash, fileName + [c], expiry, secret) == Signature(hash, fileName, [c] + expiry, secret)
  {
    assert Message(fileName + [c], expiry, secret) == Message(fileName, [c] + expiry, secret);
  }

  /** A message that marks where the file name ends: a slash, which no file
      name contains, between it and the expiry. */
  function SeparatedMessage(fileName: string, expiry: string, secret: string): string
  {
    fileName + "/" + expiry + secret
  }

  /** The signature over the separated message. */
  function SeparatedSignature(hash: Hasher, fileName: string, expiry: string, secret: string): (r: string)
    ensures |r| == 2 * DigestLength
    ensures IsLowerHex(r)
    ensures HexDecode(r) == hash(SeparatedMessage(fileName, expiry, secret))
  {
    SignMessage(hash, SeparatedMessage(fileName, expiry, secret))
  }

  /** For slash-free file names the separated message determines file name
      and expiry, unlike `Message` (see `MessageBoundaryShift`). */
  lemma SeparatedMessageInjective(f1: string, e1: string, f2: string, e2: string, secret: string)
    requires '/' !in f1 && '/' !in f2
    requires SeparatedMessage(f1, e1, secret) == SeparatedMessage(f2, e2, secret)
    ensures f1 == f2 && e1 == e2
  {
    var m := SeparatedMessage(f1, e1, secret);
    assert m == f1 + ['/'] + (e1 + secret) && m == f2 + ['/'] + (e2 + secret);
    SplitAfterWord(f1, e1 + secret, '/');
    SplitAfterWord(f2, e2 + secret, '/');
    assert f1 == Split(m, '/')[0] == f2;
    assert e1 + secret == m[|f1| + 1..] == e2 + secret;
    assert e1 == (e1 + secret)[..|e1|];
    assert e2 == (e2 + secret)[..|e2|];
  }
}

=== FILE: text.dfy ===
/** String splitting as JavaScript's `String.prototype.split` does it for a
    one-character separator, the inverse join, and dropping empty pieces
    (`filter(p => p)`). */
module Text {

  /** `s.split(sep)`: the pieces of `s` between occurrences of `sep`, in order.
      There is always at least one piece. */
  function Split(s: string, sep: char): (r: seq<string>)
    ensures |r| >= 1
  {
    if |s| == 0 then [""]
    else
      var rest := Split(s[1..], sep);
      if s[0] == sep then [""] + rest else [[s[0]] + rest[0]] + rest[1..]
  }

  /** No piece contains the separator. */
  lemma {:induction false} SplitPiecesAvoidSeparator(s: string, sep: char)
    ensures forall i :: 0 <= i < |Split(s, sep)| ==> sep !in Split(s, sep)[i]
  {
    if |s| > 0 {
      SplitPiecesAvoidSeparator(s[1..], sep);
    }
  }

  /** Joining the pieces with the separator gives the string back. */
  lemma {:induction false} JoinOfSplit(s: string, sep: char)
    ensures Join(Split(s, sep), sep) == s
  {
    if |s| > 0 {
      var rest := Split(s[1..], sep);
      JoinOfSplit(s[1..], sep);
      if s[0] == sep {
        assert ([""] + rest)[1..] == rest;
      } else {
        var r := [[s[0]] + rest[0]] + rest[1..];
        assert r[1..] == rest[1..];
        assert s == [s[0]] + s[1..];
      }
    }
  }

  /** `parts.join(sep)`. */
  function Join(parts: seq<string>, sep: char): string
  {
    if |parts| == 0 then ""
    else if |parts| == 1 then parts[0]
    else parts[0] + [sep] + Join(parts[1..], sep)
  }

  /** `parts.filter(p => p)`: the empty strings are the falsy ones. */
  function NonEmpty(parts: seq<string>): seq<string>
  {
    if |parts| == 0 then []
    else if parts[0] == "" then NonEmpty(parts[1..])
    else [parts[0]] + NonEmpty(parts[1..])
  }

  /** What is kept is every non-empty piece of `parts` and nothing else: each
      kept piece is non-empty and comes from `parts`, each non-empty piece of
      `parts` is kept, and there are no more of them than there were. The
      order is the one `NonEmptyAppend` fixes. */
  lemma {:induction false} NonEmptySpec(parts: seq<string>)
    ensures var r := NonEmpty(parts);
      && |r| <= |parts|
      && (forall i :: 0 <= i < |r| ==> r[i] != "")
      && (forall x :: x in r ==> x in parts)
      && (forall i :: 0 <= i < |parts| && parts[i] != "" ==> parts[i] in r)
  {
    if |parts| > 0 {
      NonEmptySpec(parts[1..]);
      var r := NonEmpty(parts);
      assert NonEmpty(parts[1..]) == r[|r| - |NonEmpty(parts[1..])|..];
      forall i | 1 <= i < |parts| && parts[i] != ""
        ensures parts[i] in r
      {
        assert parts[i] == parts[1..][i - 1];
      }
    }
  }

  /** A single piece is kept exactly when it is non-empty. */
  lemma NonEmptyOfOne(x: string)
    ensures NonEmpty([x]) == if x == "" then [] else [x]
  {
  }

  /** One step of `Split` on a string given as first character and rest. */
  lemma SplitCons(c: char, rest: string, sep: char)
    ensures Split([c] + rest, sep) ==
      if c == sep then [""] + Split(rest, sep)
      else [[c] + Split(rest, sep)[0]] + Split(rest, sep)[1..]
  {
    assert ([c] + rest)[1..] == rest;
  }

  /** A character in front of a string whose pieces are `left + right`
      changes only the first piece of `left`, or adds an empty one. */
  lemma SplitConsAppend(c: char, x: string, left: seq<string>, right: seq<string>, sep: char)
    requires |left| >= 1 && Split(x, sep) == left + right
    ensures Split([c] + x, sep) == (if c == sep then [""] + left else [[c] + left[0]] + left[1..]) + right
  {
    SplitCons(c, x, sep);
    if c != sep {
      assert (left + right)[0] == left[0];
      assert (left + right)[1..] == left[1..] + right;
    }
  }

  /** Splitting at one separator splits the two sides independently. */
  lemma {:induction false} SplitAtSeparator(a: string, b: string, sep: char)
    ensures Split(a + [sep] + b, sep) == Split(a, sep) + Split(b, sep)
  {
    if |a| == 0 {
      assert a + [sep] + b == [sep] + b;
      SplitCons(sep, b, sep);
    } else {
      var tail := a[1..];
      var x := tail + [sep] + b;
      assert a + [sep] + b == [a[0]] + x;
      assert a == [a[0]] + tail;
      SplitAtSeparator(tail, b, sep);
      SplitConsAppend(a[0], x, Split(tail, sep), Split(b, sep), sep);
      SplitCons(a[0], tail, sep);
    }
  }

  /** A string without the separator is a single piece. */
  lemma {:induction false} SplitWithoutSeparator(a: string, sep: char)
    requires sep !in a
    ensures Split(a, sep) == [a]
  {
    if |a| > 0 {
      SplitWithoutSeparator(a[1..], sep);
      assert a == [a[0]] + a[1..];
    }
  }

  /** A separator-free word before a separator is the first piece. */
  lemma SplitAfterWord(word: string, rest: string, sep: char)
    requires sep !in word
    ensures Split(word + [sep] + rest, sep) == [word] + Split(rest, sep)
  {
    SplitAtSeparator(word, rest, sep);
    SplitWithoutSeparator(word, sep);
  }

  /** A separator-free word followed by nothing or by a separator is the
      first piece. */
  lemma SplitFirstPiece(word: string, tail: string, sep: char)
    requires sep !in word
    requires |tail| == 0 || tail[0] == sep
    ensures Split(word + tail, sep)[0] == word
  {
    if |tail| > 0 {
      SplitAfterWord(word, tail[1..], sep);
      assert word + tail == word + [sep] + tail[1..];
    } else {
      SplitWithoutSeparator(word, sep);
      assert word + tail == word;
    }
  }

  /** Splitting a join of separator-free pieces gives the pieces back. */
  lemma {:induction false} SplitOfJoin(parts: seq<string>, sep: char)
    requires |parts| >= 1
    requires forall i :: 0 <= i < |parts| ==> sep !in parts[i]
    ensures Split(Join(parts, sep), sep) == parts
  {
    if |parts| == 1 {
      SplitWithoutSeparator(parts[0], sep);
    } else {
      SplitAtSeparator(parts[0], Join(parts[1..], sep), sep);
      SplitWithoutSeparator(parts[0], sep);
      SplitOfJoin(parts[1..], sep);
      assert parts == [parts[0]] + parts[1..];
    }
  }

  /** Dropping empty pieces distributes over concatenation. */
  lemma {:induction false} NonEmptyAppend(x: seq<string>, y: seq<string>)
    ensures NonEmpty(x + y) == NonEmpty(x) + NonEmpty(y)
  {
    if |x| > 0 {
      assert (x + y)[1..] == x[1..] + y;
      NonEmptyAppend(x[1..], y);
    } else {
      assert x + y == y;
    }
  }

  /** Pieces that are already non-empty are all kept. */
  lemma {:induction false} NonEmptyKeepsNonEmpty(parts: seq<string>)
    requires forall i :: 0 <= i < |parts| ==> parts[i] != ""
    ensures NonEmpty(parts) == parts
  {
    if |parts| > 0 {
      NonEmptyKeepsNonEmpty(parts[1..]);
      assert parts == [parts[0]] + parts[1..];
    }
  }
}

=== FILE: wrappers.dfy ===
/** The JavaScript `null`-or-value results of the gate (`searchParams.get`,
    `headers.get`, a filename that may be absent). */
module Wrappers {

  datatype Option<+T> = None | Some(value: T)
}
